=== FILE: README.md ===
# AIOS switch provisioning core, in Dafny

This project models the core of the AIOS switch firmware, an ESP32 application. A companion phone application uses it to:

- discover the device over Bluetooth Low Energy;
- read and verify the device's identity;
- list nearby Wi-Fi networks;
- hand over network credentials.

The firmware then joins the network. It persists the credentials only once the join has produced a usable address. After that, a UDP listener switches a relay on commands from a paired sensor.

Each handler is a pure step function, `state × input → (state, effects)`. Everything the C code does to the outside world is an ordered list of `Effect`s:

- radio calls;
- indications to the application;
- station calls;
- durable-storage writes;
- changes to the two sticky bits of the Wi-Fi event group.

What the radio, the JSON parser, `malloc` and the flash driver answer comes in as an explicit observation parameter. JSON parsing is an oracle `string -> Option<Json>`. The model covers how the firmware *queries* a parsed value:

- `cJSON_GetObjectItem` returns the first member whose key matches, ignoring ASCII case;
- `valuestring` is read as a C string.

Where the C code leaves its buffers, the model keeps going as the code does. The in-bounds part of the behaviour continues, and the violation is recorded as a `Fault` effect. This applies to three places:

- the unchecked allocating fragment;
- the never-terminated long-write buffer;
- `data_validation[prepare_len]`.

Lemmas then state when each fault can happen.

Modules, one per component:

| module | file | component |
|---|---|---|
| `Wrappers` | wrappers.dfy | `Option` |
| `Text` | text.dfy | bytes as characters, C strings, `snprintf` truncation, `%d` and `%02X` |
| `Json` | json.dfy | the JSON value, member lookup, the text of flat string objects |
| `Effects` | effects.dfy | the effect list, the event-group bits, the status replies |
| `Credentials` | credentials.dfy | the in-memory `{ssid, password, device_id}` slot |
| `Identity` | identity.dfy | `DEVICE_ID`, `BLE_DEVICE_NAME`, `check_device_id` |
| `Nvs` | nvs.dfy | credential store, read and flash initialisation |
| `Join` | join.dfy | `get_wifi_credentials_from_app` and the join/persistence routine |
| `WifiEvents` | wifi_events.dfy | the station event handler and `wifi_init_sta` |
| `Scan` | scan.dfy | `scan_wifi_networks` and the scan task |
| `Reassembly` | reassembly.dfy | prepare/execute long writes |
| `Gatt` | gatt.dfy | the GATT profile handler and the advertising mask |
| `Switch` | switch.dfy | `gpio_init`, `process_command`, the UDP acceptance filter |

Behaviours of the code worth noting (the model follows the code in each):

- `is_authenticated` (main/bluetooth.c:34) is never set to true. The disconnect handler resets it (main/bluetooth.c:667), and its comment speaks of resetting an authentication. A successful pairing only sets `pair_status` (main/bluetooth.c:418, 424). See `Gatt.NeverAuthenticated`.
- Advertising is not restarted on disconnect: the call at main/bluetooth.c:669 is commented out. See `Gatt.AdvertisingOnlyOnCompletion`.
- `verify_device` (main/bluetooth.c:736-747) calls `check_device_id`, which compares against `BLE_DEVICE_NAME` (main/bluetooth.c:1180-1183). The `get_deviceid` query answers with `DEVICE_ID` (main/bluetooth.c:693-695). The device's own reported id is therefore rejected. See `Identity.QueriedIdFailsVerification`.
- The reconnection handler (main/wifi.c:49-86) reconnects after every disconnect, including the reasons whose comments say retrying is forced to stop. Its retry counter is written but never read. See `WifiEvents.RetryCounterIgnored`.
- The long-write length adds each fragment's length (main/bluetooth.c:549), not the extent written. See `Reassembly.LengthCountsResends`.
- A malformed value-B command is dropped without a reply and also without the write response.
- A table-creation mismatch is only logged; nothing halts.

## Model

| member | source | states |
|---|---|---|
| Reassembly.Splice | main/bluetooth.c:545-547 | the copy writes the fragment's bytes at its offset and leaves every other byte of the buffer as it was |
| Reassembly.PrepareWrite | main/bluetooth.c:506-550 | the long-write buffer keeps its shape. There is a write response, echoing handle, offset and value with the computed status, iff one is requested and its record allocates. A rejected fragment changes neither bytes nor length. An accepted one writes its bytes at its offset, leaves every other byte alone and adds exactly its length. A failed allocation leaves no buffer. The overflow fault happens iff the allocating fragment runs past 1024 bytes |
| Reassembly.PrepareChecks | main/bluetooth.c:509-523 | NO_RESOURCES iff no buffer and the allocation fails; INVALID_OFFSET iff a buffer exists and the offset exceeds 1024; INVALID_ATTR_LEN iff a buffer exists, the offset fits and offset+length exceeds 1024; the allocating fragment is never checked |
| Reassembly.Feed | main/bluetooth.c:506-550 | a run of prepare writes keeps the buffer's shape |
| Reassembly.FeedContiguous | main/bluetooth.c:545-549 | contiguous fragments that fit extend the buffer's prefix by their values in order, and the length by their total |
| Reassembly.Reassemble | main/bluetooth.c:506-550 | a long write sent as contiguous fragments from offset 0, at most 1024 bytes in all, leaves exactly its bytes at the start of the buffer and their total as the length |
| Reassembly.LengthCountsResends | main/bluetooth.c:549 | a fragment sent twice at offset 0 leaves a length of twice its size: the length is a sum, not an extent |
| Reassembly.FragmentExamples | main/bluetooth.c:518-523 | fragments of 500 and 50 bytes reassemble to 550 bytes; a further fragment of 100 bytes at offset 1000 is answered INVALID_ATTR_LEN and changes nothing |
| Reassembly.FirstFragmentUnchecked | main/bluetooth.c:509-517 | an allocating fragment at offset 2000 is answered OK and overflows the buffer |
| Reassembly.Exec | main/bluetooth.c:859-878 | with no buffer nothing happens. A text that does not parse returns early, so buffer, length and slot survive. A parsed text releases the buffer and resets the length. The unterminated-buffer fault happens iff the buffer holds no NUL. The `data_validation` overrun happens iff a parsed write has length 300 or more |
| Reassembly.CancelActsLikeExecute | main/bluetooth.c:486-490 | the execute and cancel flags give the same result: the flag is only logged |
| Reassembly.StaleBufferSurvives | main/bluetooth.c:499-503 | after an execute whose text does not parse, the next fragment at offset 0 lands in the old buffer and the length continues from the stale one |
| Reassembly.JoinFaultFree | main/bluetooth.c:608-647 | a credential submission never records a memory fault |
| Join.ConnectCalls | main/bluetooth.c:1089-1105 | one connect call, and a second only when the first fails |
| Join.Connect | main/bluetooth.c:1032-1178 | every join starts by clearing both bits and stopping the station; the slot is emptied iff the join reached the wait and saw FAIL without CONNECTED |
| Join.Outcome | main/bluetooth.c:1107-1177 | after the wait, CONNECTED is checked before FAIL. The credentials are stored, and advertising stopped, iff CONNECTED was seen with an interface and a non-zero address; the stored record is the slot's three strings. The station is disconnected iff the address is zero. The slot is emptied iff FAIL was seen without CONNECTED |
| Join.ProvideCredentials | main/bluetooth.c:608-647 | without string `ssid` and `password` the reply is "Missing SSID or PASSWORD" and the slot is kept; otherwise the new three strings replace the slot and the join runs on them |
| Join.SubmissionReplacesSlot | main/bluetooth.c:609-633 | the previous slot leaves no trace on a complete submission |
| Join.JoinShape | main/bluetooth.c:1036-1178 | past configuration and start, the effects are the prelude, the connect calls and the outcome, in that order |
| Join.PersistOnlyOnVerifiedLease | main/bluetooth.c:1115-1133 | credentials are stored iff the join reached the wait and saw CONNECTED with an interface and a non-zero address; what is stored is the submitted slot |
| Join.OutcomeStatuses | main/bluetooth.c:1115-1177 | CONNECTED is checked before FAIL: "connected" with an address, "failed" with a zero address, "error" without an interface, "failed" on FAIL, "timeout" otherwise; the outcome makes no connect call |
| Join.StatusSequence | main/bluetooth.c:1032-1178 | the status replies in order: a single "error" when the join stops before the wait, otherwise "credentials_received" followed by the outcome's status |
| Join.EarlyExitStatuses | main/bluetooth.c:1049-1081 | a join that fails validation, configuration or start sends exactly one reply, an error |
| Join.EarlyExitNoStore | main/bluetooth.c:1049-1081 | a join that stops before the wait neither stores nor connects |
| Join.ConnectAttempts | main/bluetooth.c:1089-1105 | no connect call unless the join reaches the wait; then one, or two when the first failed |
| Join.SecondConnectIgnored | main/bluetooth.c:1096-1102 | the second connect call's result changes nothing |
| Join.ConnectEffects | main/bluetooth.c:1032-1178 | a join only resets bits, drives the station, replies, stores and stops advertising |
| Join.ProvideEffects | main/bluetooth.c:608-647 | a submission never starts advertising and never faults |
| WifiEvents.StoredSsid | main/wifi.c:24-40 | a read into a zeroed buffer yields the stored ssid as a C string, or "" when it is absent or the store does not open |
| WifiEvents.Handle | main/wifi.c:19-87 | the bits absorb the effects in order and nothing is cleared. There is a connect iff the event is a disconnect, or a station start with credentials in memory or in storage. FAIL is set iff a fast-fail disconnect, or a start without credentials. CONNECTED is set iff an address arrives. Every bit set is FAIL or CONNECTED, so a disconnect for any other reason and a start with credentials leave the bits alone. The retry counter is 0 after an address and 5 after a fast-fail reason |
| WifiEvents.RetryCounterIgnored | main/wifi.c:49-86 | the retry counter never influences an effect or a bit |
| WifiEvents.RunBits | main/wifi.c:19-87 | over any run the bits are the effects applied in order, and a set bit stays set, so CONNECTED and FAIL can both hold |
| WifiEvents.GotIpConnects | main/wifi.c:80-86 | an address anywhere in a run leaves CONNECTED set at its end |
| WifiEvents.StoredConfig | main/wifi.c:244-279 | the configuration is applied iff the stored ssid is non-empty, and it holds exactly the first 31 characters of the ssid and the first 63 of the password, as `strlcpy` into the 32- and 64-byte fields leaves them; otherwise FAIL is set |
| WifiEvents.InitSta | main/wifi.c:234-318 | station mode, then configuration or FAIL, then start. The configuration is applied iff the stored ssid is non-empty, with exactly the first 31 characters of the stored ssid and the first 63 of the stored password; without an ssid FAIL is set. `is_connected` holds iff CONNECTED was seen |
| Scan.ErrorList | main/wifi.c:137-140 | the error listing starts with the list prefix and is 12 characters longer than the prefix and the name together |
| Scan.ErrorListIsDocument | main/wifi.c:137-140 | for a name that needs no escape, the error listing is exactly the JSON text of the document whose `data` object holds the single member `error` with that name |
| Scan.Entry | main/wifi.c:173-176 | an entry for a valid record is at most 41 characters |
| Scan.ListingStep | main/wifi.c:164-183 | a record with an empty ssid is skipped; any other record appends its entry, comma-separated after the first |
| Scan.BuildScanList | main/wifi.c:160-186 | the loop's text equals the listing function over the fetched records |
| Scan.ListingBound | main/wifi.c:164-183 | the listing only grows, and it stops within 42 characters past the 900-byte mark |
| Scan.ScanListBound | main/wifi.c:160-186 | the listing starts with `{"event_type":"scan_list","data":{` and fits the 1000-byte buffer with its terminator |
| Scan.ScanListIsDocument | main/wifi.c:146-186 | with plain ssids, the listing is exactly the JSON text of the object mapping each non-empty ssid to its rssi text, in record order |
| Scan.SoftLimitNeverFires | main/wifi.c:146-183 | with at most 15 records the 900-byte rule never ends the listing early |
| Scan.UnescapedSsidBreaksDocument | main/wifi.c:173-176 | an ssid holding a quote yields text that is not the document's encoding |
| Scan.StartLoop | main/wifi.c:121-141 | the scan is started until one attempt succeeds; the error kept is that of the last attempt; the loop only starts, stops and restarts the station |
| Scan.StartLoopAttempts | main/wifi.c:121-141 | the start calls number between 1 and the attempts allowed; all but the last fail; the last is the first success, or all attempts are made |
| Scan.StartErrorList | main/wifi.c:138-140 | the start error listing is a prefix of the error listing that fits the 1000-byte buffer with its NUL, and it is the whole error listing whenever that fits |
| Scan.ScanNetworks | main/wifi.c:89-200 | a disconnect always comes first. Outside station mode only the mode error is reported. In station mode the reset comes next: clear CONNECTED, set FAIL, stop scanning. A failed start reports the last error. Otherwise the listing covers the first 15 records, or is the empty listing when none are found. It reconnects iff it completes while `is_connected` |
| Scan.ScanAttempts | main/wifi.c:98-141 | no start call outside station mode; in station mode exactly the start loop's |
| Scan.ScanLeavesFail | main/wifi.c:104-109 | a scan in station mode leaves FAIL set and CONNECTED clear, whatever the bits were |
| Scan.ScanTask | main/bluetooth.c:553-606 | a failed buffer allocation does nothing. Otherwise FAIL is set first iff neither bit was set, the listing is indicated on value B, and FAIL is set last |
| Scan.ScanTaskEndsFailed | main/bluetooth.c:566-601 | the scan task always leaves FAIL set |
| Nvs.StoreCredentials | main/nvs.c:136-202 | no-op without ssid or password. The commit is attempted iff all three writes succeed. The store changes only on a successful commit, and then holds the three strings |
| Nvs.StoreWriteOrder | main/nvs.c:151-171 | the keys written are a prefix of `ssid`, `password`, `device_id`, in that order, stopping at the first failure |
| Nvs.ReadField | main/nvs.c:55-92 | a requested field gets the stored string, or "" when the key is missing; a NULL destination stays NULL |
| Nvs.ReadCredentials | main/nvs.c:20-134 | a store that does not open leaves the destinations untouched; the requested fields are exactly those with a destination |
| Nvs.ReadMissingIsEmpty | main/nvs.c:55-59 | a missing ssid reads as "" |
| Nvs.StoreThenRead | main/nvs.c:136-202 | after a fully successful store and commit, a read returns the three stored strings |
| Nvs.Init | main/nvs.c:204-220 | the flash is erased and re-initialised exactly once, and only for NO_FREE_PAGES or NEW_VERSION_FOUND; the result is the last initialisation's |
| Identity.DeviceId | main/main.c:50-52 | `DEVICE_ID` is the 17-character colon-hex text of the MAC, untruncated |
| Identity.DeviceIdReply | main/bluetooth.c:693-695 | the `get_deviceid` reply is an object of two members whose `device_id` is `DEVICE_ID` and whose `device_type` is "AIOS_1" |
| Identity.BleDeviceName | main/main.c:47-48 | `BLE_DEVICE_NAME` is "SE-16A-SW-" and the same 17 characters, 27 in all |
| Identity.DeviceIdRoundTrip | main/main.c:50-52 | parsing `DEVICE_ID` back recovers the MAC address |
| Identity.DeviceIdInjective | main/main.c:50-52 | distinct MAC addresses get distinct device ids |
| Identity.IdentityNeverTruncated | main/main.c:47-52 | both identity strings and their NUL fit the 30-byte buffers |
| Identity.CheckDeviceId | main/bluetooth.c:1180-1195 | verification succeeds iff the received id equals `BLE_DEVICE_NAME` cut to 29 characters |
| Identity.VerifyAcceptsExactlyDeviceName | main/bluetooth.c:1180-1195 | with the firmware's own name, verification accepts exactly the prefixed name |
| Identity.QueriedIdFailsVerification | main/bluetooth.c:690-695 | the id the `get_deviceid` query returns never passes verification |
| Identity.VerificationResponse | main/bluetooth.c:1197-1210 | the reply's `status` is "success" or "error" according to the verdict |
| Gatt.ShortWriteText | main/bluetooth.c:675 | the text a direct write yields is its value up to the first NUL, cut to 299 characters |
| Gatt.ShortWriteKeepsShortText | main/bluetooth.c:675 | a NUL-free value shorter than 300 bytes reaches the parser whole |
| Gatt.ChannelA | main/bluetooth.c:680-703 | a value-A write replies at most once. It replies iff the text starts with `{`, parses, and its `cmd` is the string "get_deviceid". The reply is the device-id object |
| Gatt.AuthKeyIsSilent | main/bluetooth.c:682-684 | "BLAZE" only logs: no reply |
| Gatt.Command | main/bluetooth.c:716-780 | `scan_list` spawns the scan task when its parameters allocate. `verify_device` replies with the verification verdict. `connect` with both `ssid` and `password` items hands them and `device_id` to the credential submission, whose result is the command's; without one of them it replies "Missing SSID or PASSWORD". An unknown `cmd_type` is silent. A missing or non-string `cmd_type` takes the legacy branch: with `SSID` and `PASSWORD` it hands them and `device_id` to the submission, otherwise it is silent |
| Gatt.NotifyPattern | main/bluetooth.c:789-793 | the indication payload is 15 bytes whose i-th byte is i |
| Gatt.Descriptor | main/bluetooth.c:784-844 | a two-byte descriptor write sends the 15-byte pattern iff its little-endian value is 1 (notify) or 2 (indicate) |
| Gatt.DescriptorByteOrder | main/bluetooth.c:786-787 | bytes 01 00 enable notification; 00 01 does nothing |
| Gatt.ShortWrite | main/bluetooth.c:673-853 | handles are matched in the order value A, value B, descriptor A with two bytes, descriptor B with two bytes. A value-A write gives the channel-A reply. A value-B text that parses gives the command's slot and effects; one that does not parse gives nothing, not even the write response. A two-byte descriptor write gives that descriptor's indication on its value handle. Any other write is only logged. Every path but the unparsed value-B text appends the write response when requested, so it comes last. Only a value-B write can change the slot, and nothing else in the server changes |
| Gatt.ShortWriteResponds | main/bluetooth.c:704-852 | on every direct write except a value-B text that does not parse, the `ESP_GATT_OK` write response is sent iff the client asked for one |
| Gatt.AdvComplete | main/bluetooth.c:328-342 | advertising starts iff the completion leaves nothing pending |
| Gatt.HandleControl | main/bluetooth.c:652-670 | control events leave the slot and the long-write buffer alone. Registration sets the device name, configures privacy and creates the 7-entry table, or does nothing on failure. A connection records the interface and connection id and requests encryption. A disconnect clears authentication and the connection id and does not advertise. The table changes only on a successful creation with 7 handles, which starts the service. Pairing completion sets `pair_status` to 1 on success and 0 on failure, and nothing else changes it |
| Gatt.HandleWrite | main/bluetooth.c:671-878 | writes and the execute request change only the long-write buffer and the slot, and never start advertising |
| Gatt.Handle | main/bluetooth.c:652-902 | for any event: authentication is never gained. Advertising starts only on an advertising completion that leaves nothing pending. The table changes only on a creation with 7 handles. The slot changes only on a write or an execute. A pairing completion sets `pair_status` to 1 on success and 0 on failure |
| Gatt.NeverAuthenticated | main/bluetooth.c:665-670 | from an unauthenticated state, no run of events ever authenticates a client |
| Gatt.AdvertisingOnlyOnCompletion | main/bluetooth.c:665-670 | without advertising completions, no run of events starts advertising; a disconnect never does |
| Gatt.AdvertisingAfterBothConfigs | main/bluetooth.c:438-458 | after local privacy with both configurations accepted, advertising starts once, on the second completion, in either order |
| Gatt.HandleZeroBeforeTable | main/bluetooth.c:680 | before the table is created a direct write to handle 0 is taken as a value-A write |
| Gatt.TableNeedsAllHandles | main/bluetooth.c:888-902 | a table creation with the wrong handle count is ignored and no service starts |
| Switch.GpioInit | main/main.c:20-32 | relay and LED start at level 0; the switch pin is untouched |
| Switch.ProcessCommand | main/switch_controller.c:14-30 | "ON" drives relay, LED and switch to 1; "OFF" drives all three to 0; any other command changes no pin |
| Switch.ProcessCommandIdempotent | main/switch_controller.c:14-30 | repeating a command changes nothing, and the pins always move together |
| Switch.ListenerDeviceId | main/switch_controller.c:59-61 | the listener compares against the stored id, "" when it is missing, or whatever the buffer held when the store does not open |
| Switch.DatagramText | main/switch_controller.c:64-71 | the parser sees at most 511 received bytes, up to the first NUL |
| Switch.Accepted | main/switch_controller.c:79-88 | a datagram is accepted only with a string `command`; because the ids are compared as C strings, an id holding a NUL is never matched |
| Switch.HandleDatagram | main/switch_controller.c:63-93 | the pins change only for a parsed datagram whose `command` is a string, whose `source` is "AIOS_SENSOR" and whose `device_id` equals ours, and then to all-on or all-off |
| Switch.AcceptanceFilter | main/switch_controller.c:71-91 | an accepted "ON" or "OFF" sets the pins; a datagram that does not parse or is not accepted changes nothing |
| Switch.LongDatagramCut | main/switch_controller.c:64-68 | a datagram longer than 511 bytes acts like its first 511 |
| Switch.EmptyStoredIdMatchesEmpty | main/switch_controller.c:59-61 | a listener with no stored id obeys exactly the sensor datagrams whose `device_id` is "" |
| Switch.ListenKeepsPinsTogether | main/switch_controller.c:63-95 | after any datagrams the pins are as they started, or all on, or all off |
| Switch.ListenFromUniform | main/switch_controller.c:63-95 | once the pins agree, no datagram separates them |
| Switch.ListenIgnoresStrangers | main/switch_controller.c:80-88 | with nothing accepted, the pins never move |
| Json.Get | main/bluetooth.c:716 | an item is found iff some member's key matches ignoring ASCII case, both keys read as C strings up to their first NUL, and it is the first such member |
| Json.KeyEndsAtNul | main/bluetooth.c:716 | a member whose key is `cmd_type`, an escaped NUL and more text is found by the lookup of `cmd_type` |
| Json.StringValue | main/switch_controller.c:80-84 | `valuestring` exists only for string items and is NUL-free |

## Left out

- Radio, controller and Bluedroid initialisation, security parameters, GAP logging cases and bond lists (main/bluetooth.c:205-307, 944-1029): these are stack calls with no decision logic; their results appear only as effects.
- FreeRTOS tasks, delays and wait timeouts: the wait's result is an input. The join runs synchronously inside the GATT callback, which is a concurrency concern.
- The periodic `wifi_scan_task` loop (main/wifi.c:321-340) is left out: its result is discarded.
- cJSON parsing and `cJSON_Print` re-formatting in `ble_client_send`: a reply is the logical JSON value, and parsing is an oracle.
- JSON numbers are integers only; no decision in the firmware reads one.
- The NVS flash engine, the UDP socket and its binding, and `main/led.c` are left out: they are drivers and output sinks.
- `malloc` failures of the three credential copies (main/bluetooth.c:626-642) are left out; the copies are assumed to succeed.
- The scan-parameter allocation failure (main/bluetooth.c:720-735) is modelled as "no task spawned". The task-creation call itself is not modelled.
- Log statements that read past a buffer are left out: the unterminated `%s` prints of received values, and the print of `device_id` before its check.
- `data_validation` content after a long write is left out; only the index fault is recorded.
- `nvs_get_str` destination sizes (100-byte and 32-byte buffers) are not checked against the stored length.
- `prepare_len` is an `int` in the C code. Its 32-bit overflow is not modelled, because reaching it needs about 2^31 bytes of fragments.
- Only the profile registered for this application is modelled: dispatch by `gatts_if`, the raw advertising-data variant, MTU and the other events that only log are left out. A failed registration is dropped in the outer handler (main/bluetooth.c:916-928); that is the `ok` flag of `Register`.
- Compile-level inconsistencies are modelled in their intended shape:
  - `nvs_read_wifi_credentials` takes three destinations;
  - the credential record carries `device_id`;
  - value B is table index 5, as in the handler's enum;
  - the pin macros are taken as three distinct outputs.
- Credential copies made with `strdup` keep the C-string view that `Json.StringValue` already gives, so escaped NULs cannot reach the slot.
- The `ESP_ERROR_CHECK` calls are assumed to succeed: the scan's `esp_wifi_scan_get_ap_num` and `esp_wifi_scan_get_ap_records` (main/wifi.c:144, 157), and `wifi_init_sta`'s `esp_wifi_set_mode`, `esp_wifi_set_config`, `esp_wifi_start`, power-save, inactive-time, protocol and country calls (main/wifi.c:267, 271, 279, 283-299). On a failure the firmware aborts and reboots, which the model does not represent.
- `app_main` ordering, the interface logging after `wifi_init_sta`, and switch-controller task creation are left out: they are sequencing only.
- Scan.ScanListIsDocument: requires printable-ASCII ssids without a quote or a backslash, and at most 15 records. The firmware copies ssid bytes unescaped, so bytes 0x80-0xFF would form text only under a one-byte-per-character (Latin-1) reading, which JSON does not promise. `Scan.UnescapedSsidBreaksDocument` shows that the quote restriction is needed.
- Gatt.Command: requires a `device_id` string whenever a `connect` carries ssid and password, because the C code reads it unchecked. The same requirement applies to the legacy branch.
- Switch.HandleDatagram: requires a `device_id` item in every datagram that parses, because the C code dereferences it before any check.

=== FILE: credentials.dfy ===
/**
 * The in-memory credential slot `wifi_credentials`: three heap strings that
 * are either all set (after a submission) or all NULL (at boot and after a
 * failed join).
 */
module Credentials {
  import opened Wrappers

  datatype Slot = Slot(ssid: Option<string>, password: Option<string>, deviceId: Option<string>)

  const Empty := Slot(None, None, None)

  /** All three strings are present. */
  predicate Complete(s: Slot) {
    s.ssid.Some? && s.password.Some? && s.deviceId.Some?
  }

  /** The all-or-nothing shape every code path keeps the slot in. */
  predicate Valid(s: Slot) {
    Complete(s) || s == Empty
  }
}

=== FILE: effects.dfy ===
/**
 * Everything the firmware does to the outside world, as an ordered effect
 * list: radio calls, replies to the companion application, station commands,
 * durable-storage writes, changes to the Wi-Fi event group, and the points
 * where the C code leaves its buffers (recorded, then followed as the code
 * continues).
 */
module Effects {
  import opened Wrappers
  import opened Text
  import opened Json

  /** Status codes of a GATT write response. */
  datatype GattStatus = GattOk | InvalidOffset | InvalidAttrLen | NoResources

  /** The attribute value echoed in a prepare-write response. */
  datatype AttrValue = AttrValue(handle: int, offset: int, value: seq<Byte>)

  /** A memory-safety violation the C code commits at this point. */
  datatype Fault =
    | PrepareBufferOverflow(offset: int, len: int)    // memcpy past the 1024-byte prepare buffer
    | UnterminatedPrepareBuffer                       // strlen runs past the prepare buffer
    | ValidationIndexOutOfRange(index: int)           // data_validation[index] with index >= 300

  /** The two sticky bits of the Wi-Fi event group. */
  datatype Bits = Bits(connected: bool, fail: bool)

  const NoBits := Bits(false, false)

  datatype Effect =
    | Reply(msg: Json)                                // ble_client_send: indication on value B
    | Indicate(handle: int, data: string, confirm: bool)        // payload bytes as characters
    | WriteResponse(status: GattStatus, echo: Option<AttrValue>)
    | SetDeviceName(name: string)
    | ConfigLocalPrivacy
    | CreateAttrTable(count: nat)
    | StartService(handle: int)
    | ConfigAdvData
    | ConfigScanRspData
    | SetEncryption
    | StartAdvertising
    | StopAdvertising
    | SpawnScanTask(gattsIf: int, connId: int)
    | SetBits(mask: Bits)                              // xEventGroupSetBits
    | ClearBits(mask: Bits)                          // xEventGroupClearBits
    | WifiSetMode
    | WifiSetConfig(ssid: string, password: string)
    | WifiStart
    | WifiStop
    | WifiConnect
    | WifiDisconnect
    | ScanStop
    | ScanStart
    | StoreCredentials(ssid: string, password: string, deviceId: string)
    | Fault(fault: Fault)

  /** The event group after one effect; effects that do not touch it leave it alone. */
  function ApplyBits(b: Bits, e: Effect): (r: Bits)
    ensures e.SetBits? ==> r == Bits(b.connected || e.mask.connected, b.fail || e.mask.fail)
    ensures e.ClearBits? ==> r == Bits(b.connected && !e.mask.connected, b.fail && !e.mask.fail)
    ensures !e.SetBits? && !e.ClearBits? ==> r == b
  {
    match e
    case SetBits(s) => Bits(b.connected || s.connected, b.fail || s.fail)
    case ClearBits(c) => Bits(b.connected && !c.connected, b.fail && !c.fail)
    case _ => b
  }

  /** The event group after a whole effect list, applied in order. */
  function ApplyAllBits(b: Bits, es: seq<Effect>): Bits
    decreases |es|
  {
    if |es| == 0 then b else ApplyAllBits(ApplyBits(b, es[0]), es[1..])
  }

  /** Applying a concatenation applies its parts in order. */
  lemma {:induction false} ApplyAllBitsAppend(b: Bits, xs: seq<Effect>, ys: seq<Effect>)
    ensures ApplyAllBits(b, xs + ys) == ApplyAllBits(ApplyAllBits(b, xs), ys)
    decreases |xs|
  {
    if |xs| == 0 {
      assert xs + ys == ys;
    } else {
      assert (xs + ys)[1..] == xs[1..] + ys;
      ApplyAllBitsAppend(ApplyBits(b, xs[0]), xs[1..], ys);
    }
  }

  /** Local proof helper: applying a three-effect list, one effect after another. */
  lemma ApplyBits3(b: Bits, x: Effect, y: Effect, z: Effect)
    ensures ApplyAllBits(b, [x]) == ApplyBits(b, x)
    ensures ApplyAllBits(b, [x, y]) == ApplyBits(ApplyBits(b, x), y)
    ensures ApplyAllBits(b, [x, y, z]) == ApplyBits(ApplyBits(ApplyBits(b, x), y), z)
  {
    var b1 := ApplyBits(b, x);
    var b2 := ApplyBits(b1, y);
    assert [x][1..] == [] && [y][1..] == [] && [z][1..] == [];
    assert ApplyAllBits(b1, [y]) == b2;
    assert [x, y][1..] == [y];
    assert ApplyAllBits(b2, [z]) == ApplyBits(b2, z);
    assert [y, z][1..] == [z];
    assert ApplyAllBits(b1, [y, z]) == ApplyAllBits(b2, [z]);
    assert [x, y, z][1..] == [y, z];
  }

  /** How many times `e` occurs in `es`. */
  function Count(es: seq<Effect>, e: Effect): (n: nat)
    ensures n <= |es|
    ensures n == 0 <==> e !in es
    decreases |es|
  {
    if |es| == 0 then 0 else (if es[0] == e then 1 else 0) + Count(es[1..], e)
  }

  lemma {:induction false} CountAppend(xs: seq<Effect>, ys: seq<Effect>, e: Effect)
    ensures Count(xs + ys, e) == Count(xs, e) + Count(ys, e)
    decreases |xs|
  {
    if |xs| == 0 {
      assert xs + ys == ys;
    } else {
      assert (xs + ys)[1..] == xs[1..] + ys;
      CountAppend(xs[1..], ys, e);
    }
  }

  // Replies sent with ble_client_send. Each literal in the C code is valid JSON;
  // the value it denotes is what the companion application receives.

  function WifiStatus(status: string): Json {
    StringObject([("wifi_status", status)])
  }

  function WifiStatusMessage(status: string, message: string): Json {
    StringObject([("wifi_status", status), ("message", message)])
  }

  /** The `wifi_status` of a reply, if it has one as its first member. */
  function StatusOf(msg: Json): Option<string> {
    if msg.JObject? && |msg.members| > 0 && msg.members[0].key == "wifi_status" && msg.members[0].value.JString?
    then Some(msg.members[0].value.s)
    else None
  }

  /** The `wifi_status` values of the replies in an effect list, in order. */
  function Statuses(es: seq<Effect>): seq<string>
    decreases |es|
  {
    if |es| == 0 then []
    else
      (if es[0].Reply? && StatusOf(es[0].msg).Some? then [StatusOf(es[0].msg).value] else [])
      + Statuses(es[1..])
  }

  lemma StatusOfReplies(status: string, message: string)
    ensures StatusOf(WifiStatus(status)) == Some(status)
    ensures StatusOf(WifiStatusMessage(status, message)) == Some(status)
  {
    assert WifiStatus(status).members[0] == Member("wifi_status", JString(status));
    assert WifiStatusMessage(status, message).members[0] == Member("wifi_status", JString(status));
  }

  /** The status an effect contributes: one for a status reply, none otherwise. */
  function EffectStatus(e: Effect): seq<string> {
    if e.Reply? && StatusOf(e.msg).Some? then [StatusOf(e.msg).value] else []
  }

  lemma StatusesCons(e: Effect, rest: seq<Effect>)
    ensures Statuses([e] + rest) == EffectStatus(e) + Statuses(rest)
  {
    assert ([e] + rest)[1..] == rest;
  }

  /** Local proof helper: the statuses of a one-effect list. */
  lemma Statuses1(a: Effect)
    ensures Statuses([a]) == EffectStatus(a)
  {
    StatusesCons(a, []);
    assert [a] + [] == [a];
  }

  /** Local proof helper: the statuses of a two-effect list. */
  lemma Statuses2(a: Effect, b: Effect)
    ensures Statuses([a]) == EffectStatus(a)
    ensures Statuses([a, b]) == EffectStatus(a) + EffectStatus(b)
  {
    Statuses1(a);
    Statuses1(b);
    StatusesCons(a, [b]);
    assert [a] + [b] == [a, b];
  }

  /** Local proof helper: the statuses of a three-effect list, element by element. */
  lemma Statuses3(a: Effect, b: Effect, c: Effect)
    ensures Statuses([a]) == EffectStatus(a)
    ensures Statuses([a, b]) == EffectStatus(a) + EffectStatus(b)
    ensures Statuses([a, b, c]) == EffectStatus(a) + EffectStatus(b) + EffectStatus(c)
  {
    Statuses2(a, b);
    Statuses2(b, c);
    StatusesCons(a, [b, c]);
    assert [a] + [b, c] == [a, b, c];
  }

  lemma CountCons(e: Effect, rest: seq<Effect>, x: Effect)
    ensures Count([e] + rest, x) == (if e == x then 1 else 0) + Count(rest, x)
  {
    assert ([e] + rest)[1..] == rest;
  }

  lemma {:induction false} StatusesAppend(xs: seq<Effect>, ys: seq<Effect>)
    ensures Statuses(xs + ys) == Statuses(xs) + Statuses(ys)
    decreases |xs|
  {
    if |xs| == 0 {
      assert xs + ys == ys;
    } else {
      assert (xs + ys)[1..] == xs[1..] + ys;
      StatusesAppend(xs[1..], ys);
    }
  }
}

=== FILE: gatt.dfy ===
/**
 * The GATT server's profile handler, `gatts_profile_event_handler`, and the
 * advertising part of `gap_event_handler`: one step per stack event, over
 * the handler's globals (handle table, connection, authentication flag,
 * pairing status, advertising mask, long-write buffer, credential slot).
 * Direct writes are routed by comparing their handle with the 7-entry
 * attribute table; value A answers identity queries, value B carries the
 * provisioning commands, and the two configuration descriptors turn
 * notifications or indications on.
 */
module Gatt {
  import opened Wrappers
  import opened Text
  import opened Json
  import opened Effects
  import opened Credentials
  import opened Identity
  import opened Join
  import opened Reassembly

  // Positions in the attribute table (the service index enum).
  const IdxSvc: nat := 0
  const IdxValA: nat := 2
  const IdxCfgA: nat := 3
  const IdxValB: nat := 5
  const IdxCfgB: nat := 6
  /** `HRS_IDX_NB`: attributes in the service. */
  const TableSize: nat := 7

  /** The literal a client writes to value A to announce itself. */
  const AuthKey: string := "BLAZE"

  /** `adv_config_done`: a pending advertising-data and a pending scan-response configuration. */
  datatype AdvMask = AdvMask(advData: bool, scanRsp: bool)

  const NoPending := AdvMask(false, false)

  /** The handler's globals. */
  datatype Server = Server(
    table: seq<int>,        // heart_rate_handle_table
    gattsIf: int,           // interface_type
    connId: int,            // conn_id
    authenticated: bool,    // is_authenticated
    pairStatus: int,        // pair_status
    adv: AdvMask,           // adv_config_done
    prep: Env,              // prepare_write_env_b
    slot: Slot)             // wifi_credentials

  /** The globals at boot: a zeroed handle table, no connection, nothing pending. */
  const Boot := Server([0, 0, 0, 0, 0, 0, 0], 0, 0, false, 0, NoPending, Idle, Empty)

  predicate ValidServer(s: Server) {
    |s.table| == TableSize && ValidEnv(s.prep) && Valid(s.slot)
  }

  /** The parameters of a write event. */
  datatype Write = Write(gattsIf: int, connId: int, handle: int, offset: nat, value: seq<Byte>, isPrep: bool, needRsp: bool)

  datatype Event =
    | Register(ok: bool)                                          // ESP_GATTS_REG_EVT and its status
    | Connected(gattsIf: int, connId: int)                        // ESP_GATTS_CONNECT_EVT
    | Disconnected                                                // ESP_GATTS_DISCONNECT_EVT
    | WriteEvt(w: Write)                                          // ESP_GATTS_WRITE_EVT
    | ExecWrite(execFlag: bool)                                   // ESP_GATTS_EXEC_WRITE_EVT
    | AttrTabCreated(ok: bool, handles: seq<int>)                 // ESP_GATTS_CREAT_ATTR_TAB_EVT
    | AuthComplete(success: bool)                                 // ESP_GAP_BLE_AUTH_CMPL_EVT
    | PrivacyConfigured(ok: bool, advDataOk: bool, scanRspOk: bool) // local privacy done, then both data configs
    | AdvDataSet                                                  // ESP_GAP_BLE_ADV_DATA_SET_COMPLETE_EVT
    | ScanRspDataSet                                              // ESP_GAP_BLE_SCAN_RSP_DATA_SET_COMPLETE_EVT

  /** What the handler observes while handling one event. */
  datatype Obs = Obs(join: JoinObs, prepAlloc: Option<seq<Byte>>, rspAllocOk: bool, paramsAllocOk: bool)

  /** The device's fixed context: its MAC address and the JSON parser. */
  datatype Device = Device(mac: Mac, parse: string -> Option<Json>)

  datatype Step = Step(server: Server, effects: seq<Effect>)

  /** `data_validation` after a direct write: the value as a C string, cut to 299 characters. */
  function ShortWriteText(value: seq<Byte>): (r: string)
    ensures r <= CString(value) && NUL !in r
    ensures |r| == Min(|CString(value)|, ValidationSize - 1)
  {
    Truncated(CString(value), ValidationSize)
  }

  /** A NUL-free value of at most 299 bytes reaches the parser whole. */
  lemma ShortWriteKeepsShortText(value: seq<Byte>)
    requires NUL !in value && |value| < ValidationSize
    ensures ShortWriteText(value) == value
  {
    CStringOfPlain(value);
  }

  /** Whether a text is the identity query: a `{`-led object whose `cmd` is the string "get_deviceid". */
  predicate IsIdentityQuery(dev: Device, text: string) {
    |text| > 0 && text[0] == '{' && dev.parse(text).Some?
    && StringValue(Get(dev.parse(text).value, "cmd")) == Some("get_deviceid")
  }

  /** A write to value A: the announcement, the identity query, or anything else, ignored. */
  function ChannelA(dev: Device, text: string): (r: seq<Effect>)
    ensures |r| <= 1
    ensures |r| == 1 <==> IsIdentityQuery(dev, text)
    ensures |r| == 1 ==> r[0] == Reply(DeviceIdReply(dev.mac))
  {
    if text == AuthKey then []
    else if |text| > 0 && text[0] == '{' then
      match dev.parse(text)
      case None => []
      case Some(root) =>
        if StringValue(Get(root, "cmd")) == Some("get_deviceid") then [Reply(DeviceIdReply(dev.mac))] else []
    else []
  }

  /** The announcement is only logged: it neither replies nor authenticates. */
  lemma AuthKeyIsSilent(dev: Device)
    ensures ChannelA(dev, AuthKey) == []
  {
  }

  /** The commands value B accepts, by `cmd_type`. */
  const CmdScan: string := "scan_list"
  const CmdVerify: string := "verify_device"
  const CmdConnect: string := "connect"

  /**
   * What the caller must guarantee of a parsed value-B command: the connect
   * command prints `device_id` whenever ssid and password are present, and
   * every credential hand-off copies it unchecked.
   */
  predicate CommandAdmissible(root: Json) {
    var cmdType := StringValue(Get(root, "cmd_type"));
    if cmdType.Some? then
      cmdType.value == CmdConnect && Get(root, "ssid").Some? && Get(root, "password").Some? ==>
        Get(root, "device_id").Some? && DeviceIdFollows(Get(root, "ssid"), Get(root, "password"), Get(root, "device_id"))
    else LegacyAdmissible(root)
  }

  /** A parsed value-B command. The result holds the new slot and the effects, before the write response. */
  function Command(dev: Device, slot: Slot, w: Write, root: Json, obs: Obs): (r: JoinResult)
    requires Valid(slot) && CommandAdmissible(root)
    ensures Valid(r.slot)
    ensures StringValue(Get(root, "cmd_type")) == Some(CmdScan) ==>
              r == JoinResult(slot, if obs.paramsAllocOk then [SpawnScanTask(w.gattsIf, w.connId)] else [])
    ensures StringValue(Get(root, "cmd_type")) == Some(CmdVerify) ==>
              r == JoinResult(slot, [Reply(VerificationResponse(
                     StringValue(Get(root, "device_id")).Some?
                     && CheckDeviceId(StringValue(Get(root, "device_id")).value, BleDeviceName(dev.mac))))])
    ensures StringValue(Get(root, "cmd_type")) == Some(CmdConnect) && Get(root, "ssid").Some? && Get(root, "password").Some? ==>
              r == ProvideCredentials(slot, Get(root, "ssid"), Get(root, "password"), Get(root, "device_id"), obs.join)
    ensures StringValue(Get(root, "cmd_type")) == Some(CmdConnect) && (Get(root, "ssid").None? || Get(root, "password").None?) ==>
              r == JoinResult(slot, [Reply(MissingCredentials)])
    ensures StringValue(Get(root, "cmd_type")).Some? && StringValue(Get(root, "cmd_type")).value !in {CmdScan, CmdVerify, CmdConnect} ==>
              r == JoinResult(slot, [])
    ensures StringValue(Get(root, "cmd_type")).None? && (Get(root, "SSID").None? || Get(root, "PASSWORD").None?) ==>
              r == JoinResult(slot, [])
    ensures StringValue(Get(root, "cmd_type")).None? && Get(root, "SSID").Some? && Get(root, "PASSWORD").Some? ==>
              r == ProvideCredentials(slot, Get(root, "SSID"), Get(root, "PASSWORD"), Get(root, "device_id"), obs.join)
  {
    var cmdType := StringValue(Get(root, "cmd_type"));
    if cmdType.Some? then
      if cmdType.value == CmdScan then
        JoinResult(slot, if obs.paramsAllocOk then [SpawnScanTask(w.gattsIf, w.connId)] else [])
      else if cmdType.value == CmdVerify then
        var id := StringValue(Get(root, "device_id"));
        JoinResult(slot, [Reply(VerificationResponse(id.Some? && CheckDeviceId(id.value, BleDeviceName(dev.mac))))])
      else if cmdType.value == CmdConnect then
        var ssid, password, deviceId := Get(root, "ssid"), Get(root, "password"), Get(root, "device_id");
        if ssid.Some? && password.Some? then ProvideCredentials(slot, ssid, password, deviceId, obs.join)
        else JoinResult(slot, [Reply(MissingCredentials)])
      else JoinResult(slot, [])
    else
      var (ssid, password, deviceId) := LegacyItems(root);
      if ssid.Some? && password.Some? then ProvideCredentials(slot, ssid, password, deviceId, obs.join)
      else JoinResult(slot, [])
  }

  /** The fifteen bytes 0, 1, ..., 14 sent when notifications or indications are enabled. */
  function NotifyPattern(): (r: string)
    ensures |r| == 15 && forall i :: 0 <= i < 15 ==> r[i] as int == i
  {
    seq(15, i requires 0 <= i < 15 => (i % 255) as char)
  }

  /** A configuration descriptor's two bytes, little-endian. */
  function DescriptorValue(value: seq<Byte>): (v: int)
    requires |value| == 2
    ensures 0 <= v < 0x1_0000
  {
    value[1] as int * 256 + value[0] as int
  }

  /** A write of two bytes to a configuration descriptor: 1 notifies, 2 indicates, on the matching value. */
  function Descriptor(valueHandle: int, value: seq<Byte>): (r: seq<Effect>)
    requires |value| == 2
    ensures |r| <= 1
    ensures |r| == 1 <==> value[1] == NUL && (value[0] as int == 1 || value[0] as int == 2)
    ensures |r| == 1 ==> r[0] == Indicate(valueHandle, NotifyPattern(), value[0] as int == 2)
  {
    var v := DescriptorValue(value);
    if v == 1 then [Indicate(valueHandle, NotifyPattern(), false)]
    else if v == 2 then [Indicate(valueHandle, NotifyPattern(), true)]
    else []
  }

  /** The wire order is little-endian: bytes 01 00 enable notification, 00 01 does nothing. */
  lemma DescriptorByteOrder(h: int)
    ensures Descriptor(h, [1 as char, 0 as char]) == [Indicate(h, NotifyPattern(), false)]
    ensures Descriptor(h, [0 as char, 1 as char]) == []
  {
  }

  /** What the caller must guarantee of an event handled in state `s`. */
  predicate EventAdmissible(dev: Device, s: Server, e: Event)
    requires ValidServer(s)
  {
    match e
    case WriteEvt(w) =>
      (!w.isPrep && w.handle != s.table[IdxValA] && w.handle == s.table[IdxValB]
       && dev.parse(ShortWriteText(w.value)).Some?)
      ==> CommandAdmissible(dev.parse(ShortWriteText(w.value)).value)
    case ExecWrite(_) =>
      s.prep.buf.Some? && dev.parse(CString(s.prep.buf.value)).Some? ==>
        LegacyAdmissible(dev.parse(CString(s.prep.buf.value)).value)
    case _ => true
  }

  predicate ObsAdmissible(obs: Obs) {
    obs.prepAlloc.Some? ==> |obs.prepAlloc.value| == PrepareBufSize
  }

  /**
   * A direct write. Value A and value B are matched first, then a two-byte
   * write to either descriptor; anything else is only logged. A write
   * response follows when requested, except after a value-B text that does
   * not parse, which returns early.
   */
  function ShortWrite(dev: Device, s: Server, w: Write, obs: Obs): (r: Step)
    requires ValidServer(s) && !w.isPrep && EventAdmissible(dev, s, WriteEvt(w))
    ensures ValidServer(r.server) && r.server == s.(slot := r.server.slot)
    ensures r.server.slot != s.slot ==> w.handle == s.table[IdxValB] && w.handle != s.table[IdxValA]
    ensures w.handle == s.table[IdxValB] && w.handle != s.table[IdxValA] && dev.parse(ShortWriteText(w.value)).None? ==>
              r == Step(s, [])
    ensures w.needRsp && r.effects != [] ==> r.effects[|r.effects| - 1] == WriteResponse(GattOk, None)
    ensures w.handle == s.table[IdxValA] ==>
              r == Step(s, ChannelA(dev, ShortWriteText(w.value)) + Response(w.needRsp))
    ensures w.handle == s.table[IdxValB] && w.handle != s.table[IdxValA] && dev.parse(ShortWriteText(w.value)).Some? ==>
              var c := Command(dev, s.slot, w, dev.parse(ShortWriteText(w.value)).value, obs);
              r == Step(s.(slot := c.slot), c.effects + Response(w.needRsp))
    ensures w.handle != s.table[IdxValA] && w.handle != s.table[IdxValB] && w.handle == s.table[IdxCfgA] && |w.value| == 2 ==>
              r == Step(s, Descriptor(s.table[IdxValA], w.value) + Response(w.needRsp))
    ensures w.handle != s.table[IdxValA] && w.handle != s.table[IdxValB] && !(w.handle == s.table[IdxCfgA] && |w.value| == 2)
            && w.handle == s.table[IdxCfgB] && |w.value| == 2 ==>
              r == Step(s, Descriptor(s.table[IdxValB], w.value) + Response(w.needRsp))
    ensures w.handle != s.table[IdxValA] && w.handle != s.table[IdxValB] && !(w.handle == s.table[IdxCfgA] && |w.value| == 2)
            && !(w.handle == s.table[IdxCfgB] && |w.value| == 2) ==>
              r == Step(s, Response(w.needRsp))
  {
    var text := ShortWriteText(w.value);
    var response := Response(w.needRsp);
    if w.handle == s.table[IdxValA] then Step(s, ChannelA(dev, text) + response)
    else if w.handle == s.table[IdxValB] then
      match dev.parse(text)
      case None => Step(s, [])
      case Some(root) =>
        var r := Command(dev, s.slot, w, root, obs);
        Step(s.(slot := r.slot), r.effects + response)
    else if w.handle == s.table[IdxCfgA] && |w.value| == 2 then Step(s, Descriptor(s.table[IdxValA], w.value) + response)
    else if w.handle == s.table[IdxCfgB] && |w.value| == 2 then Step(s, Descriptor(s.table[IdxValB], w.value) + response)
    else Step(s, response)
  }

  /** The write response that closes a direct write, when the client asked for one. */
  function Response(needRsp: bool): (r: seq<Effect>)
    ensures needRsp <==> WriteResponse(GattOk, None) in r
  {
    if needRsp then [WriteResponse(GattOk, None)] else []
  }

  /** The advertising mask after one completion; advertising starts when nothing is left pending. */
  function AdvComplete(s: Server, m: AdvMask): (r: Step)
    ensures r.server == s.(adv := m)
    ensures r.effects == (if m == NoPending then [StartAdvertising] else [])
  {
    Step(s.(adv := m), if !m.advData && !m.scanRsp then [StartAdvertising] else [])
  }

  /** One event. */
  function Handle(dev: Device, s: Server, e: Event, obs: Obs): (r: Step)
    requires ValidServer(s) && ObsAdmissible(obs) && EventAdmissible(dev, s, e)
    ensures ValidServer(r.server)
    ensures r.server.authenticated == (s.authenticated && !e.Disconnected?)
    ensures StartAdvertising in r.effects ==> (e.AdvDataSet? || e.ScanRspDataSet?) && r.server.adv == NoPending
    ensures e.Disconnected? ==> r.effects == [] && r.server.connId == 0
    ensures r.server.table != s.table ==> e.AttrTabCreated? && e.ok && |e.handles| == TableSize
    ensures r.server.slot != s.slot ==> e.WriteEvt? || e.ExecWrite?
    ensures e.AuthComplete? ==> r.server.pairStatus == (if e.success then 1 else 0)
  {
    if e.WriteEvt? || e.ExecWrite? then HandleWrite(dev, s, e, obs) else HandleControl(dev, s, e)
  }

  /** Writes and the execute request: only the long-write buffer and the credential slot change. */
  function HandleWrite(dev: Device, s: Server, e: Event, obs: Obs): (r: Step)
    requires ValidServer(s) && ObsAdmissible(obs) && EventAdmissible(dev, s, e) && (e.WriteEvt? || e.ExecWrite?)
    ensures ValidServer(r.server) && r.server == s.(prep := r.server.prep, slot := r.server.slot)
    ensures StartAdvertising !in r.effects
  {
    match e
    case WriteEvt(w) =>
      if w.isPrep then
        var p := PrepareWrite(s.prep, Fragment(w.handle, w.offset, w.value, w.needRsp), obs.prepAlloc, obs.rspAllocOk);
        assert StartAdvertising !in p.effects by { PrepareEffects(s.prep, w, obs); }
        Step(s.(prep := p.env), p.effects)
      else
        var r := ShortWrite(dev, s, w, obs);
        assert StartAdvertising !in r.effects by { ShortWriteEffects(dev, s, w, obs); }
        r
    case ExecWrite(flag) =>
      var x := Exec(s.prep, s.slot, flag, dev.parse, obs.join);
      assert StartAdvertising !in x.effects by { ExecEffects(s, flag, dev, obs); }
      Step(s.(prep := x.env, slot := x.slot), x.effects)
  }

  /** Registration, connection, table creation, pairing and advertising events. */
  function HandleControl(dev: Device, s: Server, e: Event): (r: Step)
    requires ValidServer(s) && !e.WriteEvt? && !e.ExecWrite?
    ensures ValidServer(r.server) && r.server.slot == s.slot && r.server.prep == s.prep
    ensures r.server.authenticated == (s.authenticated && !e.Disconnected?)
    ensures StartAdvertising in r.effects ==> (e.AdvDataSet? || e.ScanRspDataSet?) && r.server.adv == NoPending
    ensures e.Disconnected? ==> r.effects == [] && r.server.connId == 0
    ensures r.server.table != s.table ==> e.AttrTabCreated? && e.ok && |e.handles| == TableSize
    ensures r.server.pairStatus != s.pairStatus ==> e.AuthComplete?
    ensures e.AuthComplete? ==> r == Step(s.(pairStatus := if e.success then 1 else 0), [])
    ensures e.Register? ==>
              r == Step(s, if e.ok then [SetDeviceName(BleDeviceName(dev.mac)), ConfigLocalPrivacy, CreateAttrTable(TableSize)] else [])
    ensures e.Connected? ==> r == Step(s.(gattsIf := e.gattsIf, connId := e.connId), [SetEncryption])
    ensures e.AttrTabCreated? ==>
              r.effects == (if e.ok && |e.handles| == TableSize then [StartService(e.handles[IdxSvc])] else [])
  {
    match e
    case Register(ok) =>
      Step(s, if ok then [SetDeviceName(BleDeviceName(dev.mac)), ConfigLocalPrivacy, CreateAttrTable(TableSize)] else [])
    case Connected(gattsIf, connId) =>
      Step(s.(gattsIf := gattsIf, connId := connId), [SetEncryption])
    case Disconnected =>
      Step(s.(authenticated := false, connId := 0), [])
    case AttrTabCreated(ok, handles) =>
      if ok && |handles| == TableSize then Step(s.(table := handles), [StartService(handles[IdxSvc])])
      else Step(s, [])
    case AuthComplete(success) =>
      Step(s.(pairStatus := if success then 1 else 0), [])
    case PrivacyConfigured(ok, advDataOk, scanRspOk) =>
      if ok then
        Step(s.(adv := AdvMask(s.adv.advData || advDataOk, s.adv.scanRsp || scanRspOk)), [ConfigAdvData, ConfigScanRspData])
      else Step(s, [])
    case AdvDataSet => AdvComplete(s, s.adv.(advData := false))
    case ScanRspDataSet => AdvComplete(s, s.adv.(scanRsp := false))
  }

  lemma PrepareEffects(p: Env, w: Write, obs: Obs)
    requires ValidEnv(p) && ObsAdmissible(obs)
    ensures StartAdvertising !in PrepareWrite(p, Fragment(w.handle, w.offset, w.value, w.needRsp), obs.prepAlloc, obs.rspAllocOk).effects
  {
  }

  /**
   * The write response is sent iff the client asked for one, on every
   * direct write except a value-B text that does not parse.
   */
  lemma ShortWriteResponds(dev: Device, s: Server, w: Write, obs: Obs)
    requires ValidServer(s) && !w.isPrep && EventAdmissible(dev, s, WriteEvt(w))
    requires !(w.handle == s.table[IdxValB] && w.handle != s.table[IdxValA] && dev.parse(ShortWriteText(w.value)).None?)
    ensures w.needRsp <==> WriteResponse(GattOk, None) in ShortWrite(dev, s, w, obs).effects
  {
    var text := ShortWriteText(w.value);
    var es := ShortWrite(dev, s, w, obs).effects;
    if w.handle == s.table[IdxValA] {
      assert es == ChannelA(dev, text) + Response(w.needRsp);
    } else if w.handle == s.table[IdxValB] {
      var root := dev.parse(text).value;
      CommandEffects(dev, s.slot, w, root, obs);
      assert es == Command(dev, s.slot, w, root, obs).effects + Response(w.needRsp);
    } else if w.handle == s.table[IdxCfgA] && |w.value| == 2 {
      assert es == Descriptor(s.table[IdxValA], w.value) + Response(w.needRsp);
    } else if w.handle == s.table[IdxCfgB] && |w.value| == 2 {
      assert es == Descriptor(s.table[IdxValB], w.value) + Response(w.needRsp);
    }
  }

  lemma ShortWriteEffects(dev: Device, s: Server, w: Write, obs: Obs)
    requires ValidServer(s) && !w.isPrep && EventAdmissible(dev, s, WriteEvt(w))
    ensures StartAdvertising !in ShortWrite(dev, s, w, obs).effects
  {
    var text := ShortWriteText(w.value);
    if w.handle != s.table[IdxValA] && w.handle == s.table[IdxValB] && dev.parse(text).Some? {
      CommandEffects(dev, s.slot, w, dev.parse(text).value, obs);
    }
  }

  lemma CommandEffects(dev: Device, slot: Slot, w: Write, root: Json, obs: Obs)
    requires Valid(slot) && CommandAdmissible(root)
    ensures StartAdvertising !in Command(dev, slot, w, root, obs).effects
    ensures WriteResponse(GattOk, None) !in Command(dev, slot, w, root, obs).effects
  {
    var cmdType := StringValue(Get(root, "cmd_type"));
    var es := Command(dev, slot, w, root, obs).effects;
    if cmdType.Some? && cmdType.value == CmdConnect && Get(root, "ssid").Some? && Get(root, "password").Some? {
      ProvideJoinEffects(slot, Get(root, "ssid"), Get(root, "password"), Get(root, "device_id"), obs.join);
      JoinEffectsClean(es);
    } else if cmdType.None? && Get(root, "SSID").Some? && Get(root, "PASSWORD").Some? {
      ProvideJoinEffects(slot, Get(root, "SSID"), Get(root, "PASSWORD"), Get(root, "device_id"), obs.join);
      JoinEffectsClean(es);
    } else {
      assert forall e :: e in es ==> e.Reply? || e.SpawnScanTask?;
    }
  }

  lemma ExecEffects(s: Server, flag: bool, dev: Device, obs: Obs)
    requires ValidServer(s) && EventAdmissible(dev, s, ExecWrite(flag))
    ensures StartAdvertising !in Exec(s.prep, s.slot, flag, dev.parse, obs.join).effects
  {
    if s.prep.buf.Some? && dev.parse(CString(s.prep.buf.value)).Some? {
      var (ssid, password, deviceId) := LegacyItems(dev.parse(CString(s.prep.buf.value)).value);
      if ssid.Some? && password.Some? {
        ProvideEffects(s.slot, ssid, password, deviceId, obs.join);
      }
    }
  }

  /** A sequence of events with their observations. */
  predicate RunAdmissible(dev: Device, s: Server, inputs: seq<(Event, Obs)>)
    decreases |inputs|
  {
    ValidServer(s)
    && (|inputs| > 0 ==>
          ObsAdmissible(inputs[0].1) && EventAdmissible(dev, s, inputs[0].0)
          && RunAdmissible(dev, Handle(dev, s, inputs[0].0, inputs[0].1).server, inputs[1..]))
  }

  function Run(dev: Device, s: Server, inputs: seq<(Event, Obs)>): (r: Step)
    requires RunAdmissible(dev, s, inputs)
    decreases |inputs|
  {
    if |inputs| == 0 then Step(s, [])
    else
      var first := Handle(dev, s, inputs[0].0, inputs[0].1);
      var rest := Run(dev, first.server, inputs[1..]);
      Step(rest.server, first.effects + rest.effects)
  }

  /**
   * Nothing ever authenticates a client: from boot, over any run, the flag
   * stays false, and the table keeps its seven entries.
   */
  lemma {:induction false} NeverAuthenticated(dev: Device, s: Server, inputs: seq<(Event, Obs)>)
    requires RunAdmissible(dev, s, inputs) && !s.authenticated
    ensures !Run(dev, s, inputs).server.authenticated
    ensures |Run(dev, s, inputs).server.table| == TableSize
    decreases |inputs|
  {
    if |inputs| > 0 {
      NeverAuthenticated(dev, Handle(dev, s, inputs[0].0, inputs[0].1).server, inputs[1..]);
    }
  }

  /** A disconnect never restarts advertising: over any run, it starts only on an advertising completion. */
  lemma {:induction false} AdvertisingOnlyOnCompletion(dev: Device, s: Server, inputs: seq<(Event, Obs)>)
    requires RunAdmissible(dev, s, inputs)
    requires forall i :: 0 <= i < |inputs| ==> !inputs[i].0.AdvDataSet? && !inputs[i].0.ScanRspDataSet?
    ensures StartAdvertising !in Run(dev, s, inputs).effects
    decreases |inputs|
  {
    if |inputs| > 0 {
      var first := Handle(dev, s, inputs[0].0, inputs[0].1);
      AdvertisingOnlyOnCompletion(dev, first.server, inputs[1..]);
    }
  }

  /**
   * With both configurations accepted, advertising starts once, on the
   * second completion, whichever order the completions arrive in.
   */
  lemma AdvertisingAfterBothConfigs(dev: Device, s: Server, obs: Obs, secondFirst: bool)
    requires ValidServer(s) && ObsAdmissible(obs) && s.adv == NoPending
    ensures var a := Handle(dev, s, PrivacyConfigured(true, true, true), obs);
      var (e1, e2) := if secondFirst then (ScanRspDataSet, AdvDataSet) else (AdvDataSet, ScanRspDataSet);
      var b := Handle(dev, a.server, e1, obs);
      var c := Handle(dev, b.server, e2, obs);
      b.effects == [] && c.effects == [StartAdvertising] && c.server.adv == NoPending
  {
  }

  /**
   * Before the attribute table is created every handle in it is 0, so a
   * write to handle 0 is taken as a write to value A.
   */
  lemma HandleZeroBeforeTable(dev: Device, w: Write, obs: Obs)
    requires !w.isPrep && w.handle == 0 && ObsAdmissible(obs)
    ensures ValidServer(Boot) && Boot.table[IdxValA] == 0
    ensures Handle(dev, Boot, WriteEvt(w), obs).effects
            == ChannelA(dev, ShortWriteText(w.value)) + (if w.needRsp then [WriteResponse(GattOk, None)] else [])
  {
  }

  /** A table creation with the wrong handle count is ignored; the service is not started. */
  lemma TableNeedsAllHandles(dev: Device, s: Server, handles: seq<int>, obs: Obs)
    requires ValidServer(s) && ObsAdmissible(obs) && |handles| != TableSize
    ensures Handle(dev, s, AttrTabCreated(true, handles), obs) == Step(s, [])
  {
  }
}

=== FILE: identity.dfy ===
/**
 * Device identity: the colon-hex `DEVICE_ID` and the advertised
 * `BLE_DEVICE_NAME` derived from the MAC address at boot, the identity query
 * reply, and the `verify_device` check.
 */
module Identity {
  import opened Wrappers
  import opened Text
  import opened Json

  /** The six bytes of the factory MAC address. */
  type Mac = s: seq<Byte> | |s| == 6 witness ['\0', '\0', '\0', '\0', '\0', '\0']

  /** Size of the `BLE_DEVICE_NAME` and `DEVICE_ID` buffers. */
  const IdBufSize: nat := 30

  const NamePrefix: string := "SE-16A-SW-"
  const DeviceType: string := "AIOS_1"

  /** Inverse of `HexDigit`. */
  function HexValue(c: char): Option<nat> {
    if '0' <= c <= '9' then Some(c as int - '0' as int)
    else if 'A' <= c <= 'F' then Some(c as int - 'A' as int + 10)
    else None
  }

  /** `%02X` of one byte. */
  function Hex2(b: Byte): (r: string)
    ensures |r| == 2
  {
    [HexDigit(b as int / 16), HexDigit(b as int % 16)]
  }

  /** The six bytes as `%02X` pairs joined by colons, before any truncation. */
  function ColonHex(mac: Mac): (r: string)
    ensures |r| == 17
  {
    Hex2(mac[0]) + ":" + Hex2(mac[1]) + ":" + Hex2(mac[2]) + ":"
    + Hex2(mac[3]) + ":" + Hex2(mac[4]) + ":" + Hex2(mac[5])
  }

  /** `DEVICE_ID`: the colon-hex text as `snprintf` leaves it in its 30-byte buffer. */
  function DeviceId(mac: Mac): (r: string)
    ensures |r| == 17
    ensures r == ColonHex(mac)
  {
    Truncated(ColonHex(mac), IdBufSize)
  }

  /** `BLE_DEVICE_NAME`: the prefix and the colon-hex text in a 30-byte buffer. */
  function BleDeviceName(mac: Mac): (r: string)
    ensures |r| == 27
    ensures r == NamePrefix + DeviceId(mac)
  {
    Truncated(NamePrefix + ColonHex(mac), IdBufSize)
  }

  /** Reads one `%02X` pair back. */
  function ParseHex2(s: string): (r: Option<Byte>)
    requires |s| == 2
  {
    match (HexValue(s[0]), HexValue(s[1]))
    case (Some(h), Some(l)) => if h < 16 && l < 16 then Some((h * 16 + l) as char) else None
    case _ => None
  }

  /** Reads colon-hex text back into a MAC address. */
  function ParseDeviceId(s: string): (r: Option<Mac>)
  {
    if |s| != 17 || s[2] != ':' || s[5] != ':' || s[8] != ':' || s[11] != ':' || s[14] != ':' then None
    else
      match (ParseHex2(s[0..2]), ParseHex2(s[3..5]), ParseHex2(s[6..8]),
             ParseHex2(s[9..11]), ParseHex2(s[12..14]), ParseHex2(s[15..17]))
      case (Some(a), Some(b), Some(c), Some(d), Some(e), Some(f)) => Some([a, b, c, d, e, f])
      case _ => None
  }

  lemma Hex2RoundTrip(b: Byte)
    ensures ParseHex2(Hex2(b)) == Some(b)
  {
    var h, l := b as int / 16, b as int % 16;
    HexValueOfDigit(h);
    HexValueOfDigit(l);
    assert h * 16 + l == b as int;
  }

  /** Reading a hex digit back gives its value. */
  lemma HexValueOfDigit(d: nat)
    requires d < 16
    ensures HexValue(HexDigit(d)) == Some(d)
  {
  }

  /** Formatting is invertible: parsing `DEVICE_ID` recovers the MAC address. */
  lemma DeviceIdRoundTrip(mac: Mac)
    ensures ParseDeviceId(DeviceId(mac)) == Some(mac)
  {
    var s := DeviceId(mac);
    ColonHexLayout(mac);
    Hex2RoundTrip(mac[0]); Hex2RoundTrip(mac[1]); Hex2RoundTrip(mac[2]);
    Hex2RoundTrip(mac[3]); Hex2RoundTrip(mac[4]); Hex2RoundTrip(mac[5]);
    ParseOfPairs(s, mac);
  }

  /** Text with colons in place and six pairs that read back as `mac` parses to `mac`. */
  lemma ParseOfPairs(s: string, mac: Mac)
    requires |s| == 17 && s[2] == ':' && s[5] == ':' && s[8] == ':' && s[11] == ':' && s[14] == ':'
    requires ParseHex2(s[0..2]) == Some(mac[0]) && ParseHex2(s[3..5]) == Some(mac[1])
    requires ParseHex2(s[6..8]) == Some(mac[2]) && ParseHex2(s[9..11]) == Some(mac[3])
    requires ParseHex2(s[12..14]) == Some(mac[4]) && ParseHex2(s[15..17]) == Some(mac[5])
    ensures ParseDeviceId(s) == Some(mac)
  {
    assert [mac[0], mac[1], mac[2], mac[3], mac[4], mac[5]] == mac;
  }

  /** Where each pair and each colon sits in the colon-hex text. */
  lemma ColonHexLayout(mac: Mac)
    ensures var s := ColonHex(mac);
      s[0..2] == Hex2(mac[0]) && s[3..5] == Hex2(mac[1]) && s[6..8] == Hex2(mac[2])
      && s[9..11] == Hex2(mac[3]) && s[12..14] == Hex2(mac[4]) && s[15..17] == Hex2(mac[5])
      && s[2] == ':' && s[5] == ':' && s[8] == ':' && s[11] == ':' && s[14] == ':'
  {
    var s := ColonHex(mac);
    assert s[0..2] == Hex2(mac[0]);
    assert s[3..5] == Hex2(mac[1]);
    assert s[6..8] == Hex2(mac[2]);
    assert s[9..11] == Hex2(mac[3]);
    assert s[12..14] == Hex2(mac[4]);
    assert s[15..17] == Hex2(mac[5]);
  }

  /** Distinct MAC addresses get distinct device ids. */
  lemma DeviceIdInjective(m1: Mac, m2: Mac)
    ensures DeviceId(m1) == DeviceId(m2) ==> m1 == m2
  {
    DeviceIdRoundTrip(m1);
    DeviceIdRoundTrip(m2);
  }

  /** Both identity strings and their NUL fit the 30-byte buffers, so `snprintf` never truncates them. */
  lemma IdentityNeverTruncated(mac: Mac)
    ensures |ColonHex(mac)| + 1 <= IdBufSize
    ensures |NamePrefix + ColonHex(mac)| + 1 <= IdBufSize
    ensures DeviceId(mac) == ColonHex(mac) && BleDeviceName(mac) == NamePrefix + ColonHex(mac)
  {
  }

  /**
   * `check_device_id`: the received id must equal `BLE_DEVICE_NAME` as
   * `strncpy` copies it into a 30-byte buffer, i.e. cut to 29 characters.
   */
  function CheckDeviceId(received: string, bleDeviceName: string): (ok: bool)
    ensures ok <==> received == bleDeviceName[..Min(|bleDeviceName|, IdBufSize - 1)]
  {
    received == Truncated(bleDeviceName, IdBufSize)
  }

  /** With the firmware's own name, verification accepts exactly `BLE_DEVICE_NAME`. */
  lemma VerifyAcceptsExactlyDeviceName(mac: Mac, received: string)
    ensures CheckDeviceId(received, BleDeviceName(mac)) <==> received == NamePrefix + DeviceId(mac)
  {
  }

  /** The id returned by the `get_deviceid` query never passes `verify_device`. */
  lemma QueriedIdFailsVerification(mac: Mac)
    ensures !CheckDeviceId(DeviceId(mac), BleDeviceName(mac))
  {
    assert |DeviceId(mac)| != |BleDeviceName(mac)|;
  }

  /** `send_device_verification_response`. */
  function VerificationResponse(verified: bool): (r: Json)
    ensures r.JObject? && |r.members| == 2 && r.members[0].key == "status"
    ensures r.members[0].value == JString(if verified then "success" else "error")
  {
    if verified then StringObject([("status", "success"), ("message", "Device verified")])
    else StringObject([("status", "error"), ("message", "Unknown device")])
  }

  /** The reply to `{"cmd":"get_deviceid"}` on channel A. */
  function DeviceIdReply(mac: Mac): (r: Json)
    ensures Get(r, "device_id") == Some(JString(DeviceId(mac)))
    ensures Get(r, "device_type") == Some(JString(DeviceType))
    ensures r.JObject? && |r.members| == 2
  {
    var r := StringObject([("device_id", DeviceId(mac)), ("device_type", DeviceType)]);
    ReplyKeys(r.members);
    r
  }

  /** Local proof helper: where the two reply keys are found. */
  lemma ReplyKeys(ms: seq<Member>)
    requires |ms| == 2 && ms[0].key == "device_id" && ms[1].key == "device_type"
    ensures FindMember(ms, "device_id") == Some(0)
    ensures FindMember(ms, "device_type") == Some(1)
  {
    assert SameKey(ms[0].key, "device_id");
    assert !SameKey(ms[0].key, "device_type") by {
      SameKeyOfPlain("device_id", "device_type");
    }
    assert SameKey(ms[1].key, "device_type");
    assert ms[1..][0] == ms[1];
  }
}

=== FILE: join.dfy ===
/**
 * The credential hand-off: `get_wifi_credentials_from_app` replaces the
 * credential slot and runs `connect_wifi_with_new_credentials_task`, which
 * stops the station, applies the new configuration, issues at most two
 * connect calls, waits for the sticky event bits and then persists, reports
 * or discards. Every station call and the wait are inputs (`JoinObs`); the
 * result is the new slot and the ordered effect list.
 */
module Join {
  import opened Wrappers
  import opened Text
  import opened Json
  import opened Effects
  import opened Credentials

  /** Sizes of the station configuration's ssid and password fields. */
  const StaSsidSize: nat := 32
  const StaPasswordSize: nat := 64

  /** What the join routine observes from the station driver. */
  datatype JoinObs = JoinObs(
    setConfigOk: bool,          // esp_wifi_set_config
    startOk: bool,              // esp_wifi_start
    firstConnectOk: bool,       // first esp_wifi_connect
    secondConnectOk: bool,      // second esp_wifi_connect, made only when the first failed
    waitBits: Bits,             // event bits when the 30 s wait returns
    netifPresent: bool,         // esp_netif_get_handle_from_ifkey("WIFI_STA_DEF") != NULL
    ip: nat)                    // ip_info.ip.addr after the lease grace period

  datatype JoinResult = JoinResult(slot: Slot, effects: seq<Effect>)

  // Status replies of the join routine.
  const InvalidCredentials := WifiStatusMessage("error", "Invalid WiFi credentials")
  const SetConfigFailed := WifiStatusMessage("error", "Failed to set WiFi config")
  const StartFailed := WifiStatusMessage("error", "Failed to start WiFi")
  const CredentialsReceived := WifiStatus("credentials_received")
  const Connected := WifiStatus("connected")
  const NoIpAssigned := WifiStatusMessage("failed", "Connected but no IP assigned")
  const NoNetif := WifiStatusMessage("error", "Failed to get IP")
  const Failed := WifiStatus("failed")
  const TimedOut := WifiStatusMessage("timeout", "Connection timeout")
  const MissingCredentials := WifiStatusMessage("error", "Missing SSID or PASSWORD")

  /** The join got as far as the outcome wait: credentials present, configuration applied, station started. */
  predicate ReachesWait(slot: Slot, obs: JoinObs) {
    slot.ssid.Some? && slot.password.Some? && obs.setConfigOk && obs.startOk
  }

  /** The persistence gate: CONNECTED seen, interface present, non-zero address. */
  predicate LeaseVerified(obs: JoinObs) {
    obs.waitBits.connected && obs.netifPresent && obs.ip != 0
  }

  /** The connect calls: a second one only when the first failed; its result is ignored. */
  function ConnectCalls(obs: JoinObs): (r: seq<Effect>)
    ensures 1 <= |r| <= 2 && forall i :: 0 <= i < |r| ==> r[i] == WifiConnect
    ensures |r| == 2 <==> !obs.firstConnectOk
  {
    if obs.firstConnectOk then [WifiConnect] else [WifiConnect, WifiConnect]
  }

  /** The outcome branch after the wait: CONNECTED is checked before FAIL. */
  function Outcome(slot: Slot, obs: JoinObs): (r: JoinResult)
    requires slot.ssid.Some? && slot.password.Some?
    ensures r.slot == (if !obs.waitBits.connected && obs.waitBits.fail then Empty else slot)
    ensures forall e :: e in r.effects && e.StoreCredentials? ==>
              LeaseVerified(obs) && e == StoreCredentials(slot.ssid.value, slot.password.value, slot.deviceId.GetOr(""))
    ensures LeaseVerified(obs) ==>
              StoreCredentials(slot.ssid.value, slot.password.value, slot.deviceId.GetOr("")) in r.effects
    ensures StopAdvertising in r.effects <==> LeaseVerified(obs)
    ensures WifiDisconnect in r.effects <==> obs.waitBits.connected && obs.netifPresent && obs.ip == 0
  {
    if obs.waitBits.connected then
      if obs.netifPresent then
        if obs.ip != 0 then
          JoinResult(slot, [StoreCredentials(slot.ssid.value, slot.password.value, slot.deviceId.GetOr("")),
                            Reply(Connected), StopAdvertising])
        else JoinResult(slot, [Reply(NoIpAssigned), WifiDisconnect])
      else JoinResult(slot, [Reply(NoNetif)])
    else if obs.waitBits.fail then JoinResult(Empty, [Reply(Failed)])
    else JoinResult(slot, [Reply(TimedOut)])
  }

  /** The station configuration the join applies: both strings cut to their fields. */
  function StaConfig(slot: Slot): Effect
    requires slot.ssid.Some? && slot.password.Some?
  {
    WifiSetConfig(Truncated(slot.ssid.value, StaSsidSize), Truncated(slot.password.value, StaPasswordSize))
  }

  /** Everything up to the connect calls when configuration and start succeed. */
  function Prelude(slot: Slot): seq<Effect>
    requires slot.ssid.Some? && slot.password.Some?
  {
    [ClearBits(Bits(true, true)), WifiStop, StaConfig(slot), WifiStart, Reply(CredentialsReceived)]
  }

  /** `connect_wifi_with_new_credentials_task`. */
  function Connect(slot: Slot, obs: JoinObs): (r: JoinResult)
    requires Valid(slot)
    ensures Valid(r.slot)
    ensures |r.effects| >= 3 && r.effects[0] == ClearBits(Bits(true, true)) && r.effects[1] == WifiStop
    ensures r.slot == (if ReachesWait(slot, obs) && !obs.waitBits.connected && obs.waitBits.fail then Empty else slot)
  {
    var head := [ClearBits(Bits(true, true)), WifiStop];
    if slot.ssid.None? || slot.password.None? then
      JoinResult(slot, head + [Reply(InvalidCredentials)])
    else
      if !obs.setConfigOk then
        JoinResult(slot, head + [StaConfig(slot), Reply(SetConfigFailed)])
      else if !obs.startOk then
        JoinResult(slot, head + [StaConfig(slot), WifiStart, Reply(StartFailed)])
      else
        var out := Outcome(slot, obs);
        JoinResult(out.slot, Prelude(slot) + ConnectCalls(obs) + out.effects)
  }

  /** `device_id` carries a string whenever ssid and password do: it is copied without a check. */
  predicate DeviceIdFollows(ssid: Option<Json>, password: Option<Json>, deviceId: Option<Json>) {
    StringValue(ssid).Some? && StringValue(password).Some? ==> StringValue(deviceId).Some?
  }

  /**
   * `get_wifi_credentials_from_app`. Both items must carry strings; the
   * previous strings are released and the new three stored, then the join
   * runs. `device_id` is read without a check, so the caller must supply a
   * string whenever ssid and password are strings.
   */
  function ProvideCredentials(slot: Slot, ssid: Option<Json>, password: Option<Json>, deviceId: Option<Json>, obs: JoinObs): (r: JoinResult)
    requires Valid(slot)
    requires DeviceIdFollows(ssid, password, deviceId)
    ensures Valid(r.slot)
    ensures StringValue(ssid).None? || StringValue(password).None? ==> r == JoinResult(slot, [Reply(MissingCredentials)])
    ensures StringValue(ssid).Some? && StringValue(password).Some? ==>
              r == Connect(Slot(StringValue(ssid), StringValue(password), StringValue(deviceId)), obs)
  {
    match (StringValue(ssid), StringValue(password))
    case (Some(s), Some(p)) => Connect(Slot(Some(s), Some(p), StringValue(deviceId)), obs)
    case _ => JoinResult(slot, [Reply(MissingCredentials)])
  }

  /** A new submission leaves no trace of the credentials it replaces. */
  lemma SubmissionReplacesSlot(old1: Slot, old2: Slot, ssid: Option<Json>, password: Option<Json>, deviceId: Option<Json>, obs: JoinObs)
    requires Valid(old1) && Valid(old2)
    requires StringValue(ssid).Some? && StringValue(password).Some? && StringValue(deviceId).Some?
    ensures ProvideCredentials(old1, ssid, password, deviceId, obs) == ProvideCredentials(old2, ssid, password, deviceId, obs)
  {
  }

  /** When the join reaches the wait, its effects are the prelude, the connect calls and the outcome. */
  lemma JoinShape(slot: Slot, obs: JoinObs)
    requires Valid(slot) && ReachesWait(slot, obs)
    ensures Connect(slot, obs).effects == Prelude(slot) + ConnectCalls(obs) + Outcome(slot, obs).effects
    ensures Connect(slot, obs).slot == Outcome(slot, obs).slot
  {
  }

  /** The kinds of effect a join can have: station calls, replies, the store and the advertising stop. */
  predicate JoinEffect(e: Effect) {
    e.ClearBits? || e.WifiStop? || e.WifiSetConfig? || e.WifiStart? || e.Reply? || e.WifiConnect?
    || e.StoreCredentials? || e.StopAdvertising? || e.WifiDisconnect?
  }

  /** A join never faults, never scans and never starts advertising. */
  lemma ConnectEffects(slot: Slot, obs: JoinObs)
    requires Valid(slot)
    ensures forall e :: e in Connect(slot, obs).effects ==> JoinEffect(e)
  {
    if ReachesWait(slot, obs) {
      WaitEffects(slot, obs);
    }
  }

  lemma WaitEffects(slot: Slot, obs: JoinObs)
    requires Valid(slot) && ReachesWait(slot, obs)
    ensures forall e :: e in Connect(slot, obs).effects ==> JoinEffect(e)
  {
    JoinShape(slot, obs);
    PartsJoinEffects(Prelude(slot), ConnectCalls(obs), Outcome(slot, obs).effects);
  }

  lemma PartsJoinEffects(a: seq<Effect>, b: seq<Effect>, c: seq<Effect>)
    requires forall e :: e in a ==> JoinEffect(e)
    requires forall e :: e in b ==> JoinEffect(e)
    requires forall e :: e in c ==> JoinEffect(e)
    ensures forall e :: e in a + b + c ==> JoinEffect(e)
  {
  }

  /** The same for a credential submission, whichever way it ends. */
  lemma ProvideEffects(slot: Slot, ssid: Option<Json>, password: Option<Json>, deviceId: Option<Json>, obs: JoinObs)
    requires Valid(slot) && DeviceIdFollows(ssid, password, deviceId)
    ensures StartAdvertising !in ProvideCredentials(slot, ssid, password, deviceId, obs).effects
    ensures forall e :: e in ProvideCredentials(slot, ssid, password, deviceId, obs).effects ==> !e.Fault? && !e.WriteResponse?
  {
    ProvideJoinEffects(slot, ssid, password, deviceId, obs);
    JoinEffectsClean(ProvideCredentials(slot, ssid, password, deviceId, obs).effects);
  }

  /** Local proof helper: join effects neither advertise, fault nor respond to a write. */
  lemma JoinEffectsClean(es: seq<Effect>)
    requires forall e :: e in es ==> JoinEffect(e)
    ensures StartAdvertising !in es
    ensures forall e :: e in es ==> !e.Fault? && !e.WriteResponse?
  {
  }

  /** Local proof helper: a submission's effects are join effects. */
  lemma ProvideJoinEffects(slot: Slot, ssid: Option<Json>, password: Option<Json>, deviceId: Option<Json>, obs: JoinObs)
    requires Valid(slot) && DeviceIdFollows(ssid, password, deviceId)
    ensures forall e :: e in ProvideCredentials(slot, ssid, password, deviceId, obs).effects ==> JoinEffect(e)
  {
    var s, p := StringValue(ssid), StringValue(password);
    if s.Some? && p.Some? {
      ConnectEffects(Slot(s, p, StringValue(deviceId)), obs);
    }
  }

  /**
   * The persistence gate: credentials are stored if and only if the join
   * reached the wait and then saw CONNECTED, an interface and a non-zero
   * address; what is stored is the submitted slot.
   */
  lemma PersistOnlyOnVerifiedLease(slot: Slot, obs: JoinObs)
    requires Valid(slot)
    ensures (exists i :: 0 <= i < |Connect(slot, obs).effects| && Connect(slot, obs).effects[i].StoreCredentials?)
            <==> ReachesWait(slot, obs) && LeaseVerified(obs)
    ensures forall i :: 0 <= i < |Connect(slot, obs).effects| && Connect(slot, obs).effects[i].StoreCredentials? ==>
              Connect(slot, obs).effects[i] == StoreCredentials(slot.ssid.value, slot.password.value, slot.deviceId.value)
  {
    if ReachesWait(slot, obs) {
      JoinShape(slot, obs);
      var before := Prelude(slot) + ConnectCalls(obs);
      assert NoStore(before);
      OutcomeStores(slot, obs);
      AppendStores(before, Outcome(slot, obs).effects,
                   StoreCredentials(slot.ssid.value, slot.password.value, slot.deviceId.GetOr("")));
    } else {
      EarlyExitNoStore(slot, obs);
    }
  }

  predicate NoStore(es: seq<Effect>) {
    forall i :: 0 <= i < |es| ==> !es[i].StoreCredentials?
  }

  /** Only the verified-lease outcome stores, and then the submitted slot. */
  lemma OutcomeStores(slot: Slot, obs: JoinObs)
    requires slot.ssid.Some? && slot.password.Some?
    ensures var out := Outcome(slot, obs).effects;
      (exists i :: 0 <= i < |out| && out[i].StoreCredentials?) <==> LeaseVerified(obs)
    ensures var out := Outcome(slot, obs).effects;
      forall i :: 0 <= i < |out| && out[i].StoreCredentials? ==>
        out[i] == StoreCredentials(slot.ssid.value, slot.password.value, slot.deviceId.GetOr(""))
  {
    var out := Outcome(slot, obs).effects;
    if LeaseVerified(obs) {
      assert out[0].StoreCredentials?;
    }
  }

  /** Stores after a store-free prefix are those of the suffix. */
  lemma AppendStores(before: seq<Effect>, out: seq<Effect>, s: Effect)
    requires NoStore(before)
    requires forall i :: 0 <= i < |out| && out[i].StoreCredentials? ==> out[i] == s
    ensures (exists i :: 0 <= i < |before + out| && (before + out)[i].StoreCredentials?)
            <==> (exists i :: 0 <= i < |out| && out[i].StoreCredentials?)
    ensures forall i :: 0 <= i < |before + out| && (before + out)[i].StoreCredentials? ==> (before + out)[i] == s
  {
    var es := before + out;
    assert forall i :: |before| <= i < |es| ==> es[i] == out[i - |before|];
    if exists i :: 0 <= i < |out| && out[i].StoreCredentials? {
      var i :| 0 <= i < |out| && out[i].StoreCredentials?;
      assert es[|before| + i] == out[i];
    }
  }

  /** A join that stops before the wait writes nothing to storage. */
  lemma EarlyExitNoStore(slot: Slot, obs: JoinObs)
    requires Valid(slot) && !ReachesWait(slot, obs)
    ensures NoStore(Connect(slot, obs).effects)
    ensures WifiConnect !in Connect(slot, obs).effects
  {
  }

  lemma PreludeStatuses(slot: Slot)
    requires slot.ssid.Some? && slot.password.Some?
    ensures Statuses(Prelude(slot)) == ["credentials_received"]
  {
    var p := Prelude(slot);
    StatusOfReplies("credentials_received", "");
    Statuses3(p[2], p[3], p[4]);
    StatusesCons(p[1], p[2..]);
    StatusesCons(p[0], p[1..]);
    assert p[2..] == [p[2], p[3], p[4]];
    assert [p[1]] + p[2..] == p[1..];
    assert [p[0]] + p[1..] == p;
  }

  lemma ConnectCallsStatuses(obs: JoinObs)
    ensures Statuses(ConnectCalls(obs)) == []
    ensures Count(ConnectCalls(obs), WifiConnect) == |ConnectCalls(obs)|
  {
    Statuses3(WifiConnect, WifiConnect, WifiConnect);
    CountCons(WifiConnect, [], WifiConnect);
    CountCons(WifiConnect, [WifiConnect], WifiConnect);
    assert [WifiConnect] + [] == [WifiConnect];
    assert [WifiConnect] + [WifiConnect] == [WifiConnect, WifiConnect];
  }

  lemma OutcomeStatuses(slot: Slot, obs: JoinObs)
    requires slot.ssid.Some? && slot.password.Some?
    ensures Statuses(Outcome(slot, obs).effects) ==
      if obs.waitBits.connected then
        (if !obs.netifPresent then ["error"] else if obs.ip != 0 then ["connected"] else ["failed"])
      else if obs.waitBits.fail then ["failed"]
      else ["timeout"]
    ensures WifiConnect !in Outcome(slot, obs).effects
  {
    if obs.waitBits.connected {
      ConnectedOutcomeStatuses(slot, obs);
    } else {
      var es := Outcome(slot, obs).effects;
      if obs.waitBits.fail {
        StatusOfReplies("failed", "");
      } else {
        StatusOfReplies("timeout", "Connection timeout");
      }
      Statuses3(es[0], es[0], es[0]);
      assert es == [es[0]];
    }
  }

  lemma ConnectedOutcomeStatuses(slot: Slot, obs: JoinObs)
    requires slot.ssid.Some? && slot.password.Some? && obs.waitBits.connected
    ensures Statuses(Outcome(slot, obs).effects) ==
      (if !obs.netifPresent then ["error"] else if obs.ip != 0 then ["connected"] else ["failed"])
    ensures WifiConnect !in Outcome(slot, obs).effects
  {
    var es := Outcome(slot, obs).effects;
    if obs.netifPresent && obs.ip != 0 {
      StatusOfReplies("connected", "");
      Statuses3(es[0], es[1], es[2]);
      assert es == [es[0], es[1], es[2]];
    } else if obs.netifPresent {
      StatusOfReplies("failed", "Connected but no IP assigned");
      Statuses3(es[0], es[1], es[1]);
      assert es == [es[0], es[1]];
    } else {
      StatusOfReplies("error", "Failed to get IP");
      Statuses3(es[0], es[0], es[0]);
      assert es == [es[0]];
    }
  }

  /**
   * The status replies the application receives, in order. `credentials_received`
   * comes only after configuration and start succeed, and precedes the outcome.
   */
  lemma StatusSequence(slot: Slot, obs: JoinObs)
    requires Valid(slot)
    ensures Statuses(Connect(slot, obs).effects) ==
      if slot.ssid.None? then ["error"]
      else if !obs.setConfigOk || !obs.startOk then ["error"]
      else if obs.waitBits.connected then
        (if !obs.netifPresent then ["credentials_received", "error"]
         else if obs.ip != 0 then ["credentials_received", "connected"]
         else ["credentials_received", "failed"])
      else if obs.waitBits.fail then ["credentials_received", "failed"]
      else ["credentials_received", "timeout"]
  {
    if ReachesWait(slot, obs) {
      ReachWaitStatuses(slot, obs);
      OutcomeStatuses(slot, obs);
    } else {
      EarlyExitStatuses(slot, obs);
    }
  }

  /** Past the wait, the replies are `credentials_received` and then the outcome's. */
  lemma ReachWaitStatuses(slot: Slot, obs: JoinObs)
    requires Valid(slot) && ReachesWait(slot, obs)
    ensures Statuses(Connect(slot, obs).effects) == ["credentials_received"] + Statuses(Outcome(slot, obs).effects)
  {
    JoinShape(slot, obs);
    PreludeStatuses(slot);
    ConnectCallsStatuses(obs);
    Statuses3Parts(Prelude(slot), ConnectCalls(obs), Outcome(slot, obs).effects);
  }

  /** Local proof helper: statuses distribute over a join's three parts. */
  lemma Statuses3Parts(a: seq<Effect>, b: seq<Effect>, c: seq<Effect>)
    ensures Statuses(a + b + c) == Statuses(a) + Statuses(b) + Statuses(c)
  {
    StatusesAppend(a, b);
    StatusesAppend(a + b, c);
  }

  /** A join that stops before the wait sends exactly one reply, an error. */
  lemma EarlyExitStatuses(slot: Slot, obs: JoinObs)
    requires Valid(slot) && !ReachesWait(slot, obs)
    ensures Statuses(Connect(slot, obs).effects) == ["error"]
  {
    if slot.ssid.None? || slot.password.None? {
      InvalidExit(slot, obs);
    } else if !obs.setConfigOk {
      SetConfigExit(slot, obs);
    } else {
      StartExit(slot, obs);
    }
  }

  lemma InvalidExit(slot: Slot, obs: JoinObs)
    requires Valid(slot) && (slot.ssid.None? || slot.password.None?)
    ensures Statuses(Connect(slot, obs).effects) == ["error"]
  {
    StatusOfReplies("error", "Invalid WiFi credentials");
    Statuses1(Reply(InvalidCredentials));
    HeadThenError(Connect(slot, obs).effects, [Reply(InvalidCredentials)]);
  }

  lemma SetConfigExit(slot: Slot, obs: JoinObs)
    requires Valid(slot) && slot.ssid.Some? && slot.password.Some? && !obs.setConfigOk
    ensures Statuses(Connect(slot, obs).effects) == ["error"]
  {
    StatusOfReplies("error", "Failed to set WiFi config");
    Statuses2(StaConfig(slot), Reply(SetConfigFailed));
    HeadThenError(Connect(slot, obs).effects, [StaConfig(slot), Reply(SetConfigFailed)]);
  }

  lemma StartExit(slot: Slot, obs: JoinObs)
    requires Valid(slot) && slot.ssid.Some? && slot.password.Some? && obs.setConfigOk && !obs.startOk
    ensures Statuses(Connect(slot, obs).effects) == ["error"]
  {
    StatusOfReplies("error", "Failed to start WiFi");
    Statuses3(StaConfig(slot), WifiStart, Reply(StartFailed));
    HeadThenError(Connect(slot, obs).effects, [StaConfig(slot), WifiStart, Reply(StartFailed)]);
  }

  /** Local proof helper: the reset at the head of every join sends no status. */
  lemma HeadThenError(es: seq<Effect>, tail: seq<Effect>)
    requires es == [ClearBits(Bits(true, true)), WifiStop] + tail
    requires Statuses(tail) == ["error"]
    ensures Statuses(es) == ["error"]
  {
    var head := [ClearBits(Bits(true, true)), WifiStop];
    Statuses2(head[0], head[1]);
    StatusesAppend(head, tail);
  }

  /** The second connect call's result changes nothing: a failure there does not abort the join. */
  lemma SecondConnectIgnored(slot: Slot, obs: JoinObs)
    requires Valid(slot)
    ensures Connect(slot, obs) == Connect(slot, obs.(secondConnectOk := !obs.secondConnectOk))
  {
  }

  /**
   * Connect calls: none unless the join reaches the wait; then one, or two
   * when the first failed.
   */
  lemma ConnectAttempts(slot: Slot, obs: JoinObs)
    requires Valid(slot)
    ensures Count(Connect(slot, obs).effects, WifiConnect) ==
            (if !ReachesWait(slot, obs) then 0 else if obs.firstConnectOk then 1 else 2)
  {
    if ReachesWait(slot, obs) {
      WaitAttempts(slot, obs);
    } else {
      EarlyExitNoStore(slot, obs);
    }
  }

  lemma WaitAttempts(slot: Slot, obs: JoinObs)
    requires Valid(slot) && ReachesWait(slot, obs)
    ensures Count(Connect(slot, obs).effects, WifiConnect) == (if obs.firstConnectOk then 1 else 2)
  {
    JoinShape(slot, obs);
    ConnectCallsStatuses(obs);
    OutcomeNoConnect(slot, obs);
    CountParts(Prelude(slot), ConnectCalls(obs), Outcome(slot, obs).effects);
  }

  lemma OutcomeNoConnect(slot: Slot, obs: JoinObs)
    requires slot.ssid.Some? && slot.password.Some?
    ensures WifiConnect !in Outcome(slot, obs).effects
  {
  }

  /** Connect calls in three parts, the outer two free of them. */
  lemma CountParts(a: seq<Effect>, b: seq<Effect>, c: seq<Effect>)
    requires WifiConnect !in a && WifiConnect !in c
    ensures Count(a + b + c, WifiConnect) == Count(b, WifiConnect)
  {
    CountAppend(a, b, WifiConnect);
    CountAppend(a + b, c, WifiConnect);
  }
}

=== FILE: json.dfy ===
/**
 * The logical JSON value the firmware reads and writes through cJSON.
 *
 * Parsing is not modelled: callers receive it as an oracle
 * `string -> Option<Json>`. What is modelled is how the firmware queries a
 * parsed value: `cJSON_GetObjectItem`, which returns the first member whose
 * key matches ignoring ASCII case up to the first NUL, and `valuestring`, which is present only
 * for string items.
 */
module Json {
  import opened Wrappers
  import opened Text

  datatype Json =
    | JNull
    | JBool(b: bool)
    | JNumber(n: int)
    | JString(s: string)
    | JArray(items: seq<Json>)
    | JObject(members: seq<Member>)

  datatype Member = Member(key: string, value: Json)

  /** ASCII lower-casing, as cJSON's key comparison applies it to both sides. */
  function ToLower(c: char): char {
    if 'A' <= c <= 'Z' then (c as int + 32) as char else c
  }

  /**
   * Two member keys that cJSON's case-insensitive comparison treats as equal.
   * The comparison stops at the first NUL, so a key decoded from an escaped
   * `\u0000` ends there.
   */
  predicate SameKey(a: string, b: string) {
    var x, y := CString(a), CString(b);
    |x| == |y| && forall i :: 0 <= i < |x| ==> ToLower(x[i]) == ToLower(y[i])
  }

  /** Keys without a NUL are compared whole. */
  lemma SameKeyOfPlain(a: string, b: string)
    requires NUL !in a && NUL !in b
    ensures SameKey(a, b) <==> |a| == |b| && forall i :: 0 <= i < |a| ==> ToLower(a[i]) == ToLower(b[i])
  {
    CStringOfPlain(a);
    CStringOfPlain(b);
  }

  /** Index of the first member whose key matches `key`. */
  function FindMember(ms: seq<Member>, key: string): (r: Option<nat>)
    ensures r.Some? ==> r.value < |ms| && SameKey(ms[r.value].key, key)
    ensures r.Some? ==> forall j :: 0 <= j < r.value ==> !SameKey(ms[j].key, key)
    ensures r.None? <==> forall j :: 0 <= j < |ms| ==> !SameKey(ms[j].key, key)
  {
    if |ms| == 0 then None
    else if SameKey(ms[0].key, key) then Some(0)
    else
      match FindMember(ms[1..], key)
      case None => None
      case Some(i) => Some(i + 1)
  }

  /** `cJSON_GetObjectItem(j, key)`: only objects have items. */
  function Get(j: Json, key: string): (r: Option<Json>)
    ensures r.Some? <==> j.JObject? && exists i :: 0 <= i < |j.members| && SameKey(j.members[i].key, key)
    ensures r.Some? ==> exists i :: 0 <= i < |j.members| && SameKey(j.members[i].key, key)
                           && j.members[i].value == r.value
                           && forall k :: 0 <= k < i ==> !SameKey(j.members[k].key, key)
  {
    if !j.JObject? then None
    else
      match FindMember(j.members, key)
      case None => None
      case Some(i) => Some(j.members[i].value)
  }

  /** A member key holding an escaped NUL is found under its text before the NUL. */
  lemma KeyEndsAtNul()
    ensures Get(JObject([Member("cmd_type\0x", JString("connect"))]), "cmd_type") == Some(JString("connect"))
  {
    assert "cmd_type\0x" == "cmd_type" + [NUL] + "x";
    CStringStops("cmd_type", "x");
    CStringOfPlain("cmd_type");
  }

  /**
   * `item->valuestring` as the C string functions see it: a string for
   * string items, cut at an escaped NUL, and NULL for anything else or a
   * missing item.
   */
  function StringValue(item: Option<Json>): (r: Option<string>)
    ensures r.Some? <==> item.Some? && item.value.JString?
    ensures r.Some? ==> r.value <= item.value.s && NUL !in r.value
  {
    match item
    case Some(JString(s)) => Some(CString(s))
    case _ => None
  }

  /** An object literal with string members only, as the firmware's reply texts are. */
  function StringObject(pairs: seq<(string, string)>): (r: Json)
    ensures r.JObject? && |r.members| == |pairs|
    ensures forall i :: 0 <= i < |pairs| ==> r.members[i] == Member(pairs[i].0, JString(pairs[i].1))
  {
    if |pairs| == 0 then JObject([])
    else JObject([Member(pairs[0].0, JString(pairs[0].1))] + StringObject(pairs[1..]).members)
  }

  // The JSON text of string values and flat string objects (section 7 of RFC 8259),
  // the reference the firmware's hand-built texts are compared with.

  /** A character that may stand for itself inside a JSON string. */
  predicate PlainChar(c: char) {
    c >= ' ' && c != '"' && c != '\\'
  }

  predicate Plain(s: string) {
    forall i :: 0 <= i < |s| ==> PlainChar(s[i])
  }

  /** The escape sequence of one character inside a JSON string. */
  function EscapeChar(c: char): (r: string)
    ensures PlainChar(c) <==> r == [c]
    ensures !PlainChar(c) ==> |r| >= 2 && r[0] == '\\'
  {
    if c == '"' || c == '\\' then ['\\', c]
    else if c < ' ' then "\\u00" + [HexDigit(c as int / 16), HexDigit(c as int % 16)]
    else [c]
  }

  function Escape(s: string): (r: string)
    ensures |r| >= |s|
    decreases |s|
  {
    if |s| == 0 then "" else EscapeChar(s[0]) + Escape(s[1..])
  }

  /** Plain text needs no escaping. */
  lemma {:induction false} EscapePlain(s: string)
    requires Plain(s)
    ensures Escape(s) == s
    decreases |s|
  {
    if |s| > 0 {
      EscapePlain(s[1..]);
      assert [s[0]] + s[1..] == s;
    }
  }

  /** Escaping changes exactly the texts that are not plain. */
  lemma {:induction false} EscapeChangesNonPlain(s: string)
    requires !Plain(s)
    ensures Escape(s) != s
    decreases |s|
  {
    if PlainChar(s[0]) {
      assert !Plain(s[1..]) by {
        var i :| 0 <= i < |s| && !PlainChar(s[i]);
        assert s[1..][i - 1] == s[i];
      }
      EscapeChangesNonPlain(s[1..]);
      assert Escape(s) == [s[0]] + Escape(s[1..]);
    } else {
      var e := EscapeChar(s[0]);
      assert Escape(s) == e + Escape(s[1..]);
      assert |Escape(s)| >= |s| + 1 by {
        assert |Escape(s[1..])| >= |s| - 1;
      }
    }
  }

  function Quote(s: string): string {
    "\"" + Escape(s) + "\""
  }

  /** `"k":"v"` members joined by commas. */
  function MembersText(pairs: seq<(string, string)>): string
    decreases |pairs|
  {
    if |pairs| == 0 then ""
    else if |pairs| == 1 then Quote(pairs[0].0) + ":" + Quote(pairs[0].1)
    else Quote(pairs[0].0) + ":" + Quote(pairs[0].1) + "," + MembersText(pairs[1..])
  }

  /** The JSON text of the flat string object `StringObject(pairs)`. */
  function ObjectText(pairs: seq<(string, string)>): string {
    "{" + MembersText(pairs) + "}"
  }
}

=== FILE: nvs.dfy ===
/**
 * Durable credential storage over an abstract key/value store: the storing
 * sequence with its early returns, the reader with its empty-string default,
 * and the erase-and-retry rule of initialisation. The flash engine itself is
 * not modelled: the outcome of every storage call is an input.
 */
module Nvs {
  import opened Wrappers
  import opened Credentials

  /** The committed contents of the "storage" namespace. */
  type Store = map<string, string>

  const KeySsid: string := "ssid"
  const KeyPassword: string := "password"
  const KeyDeviceId: string := "device_id"

  /** The storage calls `store_wifi_credentials_to_nvs` makes, in order. */
  datatype NvsCall = Open | SetStr(key: string, value: string) | Commit | Close

  /** Outcomes of the storage calls, one per call the storing sequence may make. */
  datatype StoreObs = StoreObs(openOk: bool, ssidSetOk: bool, passwordSetOk: bool, deviceIdSetOk: bool, commitOk: bool)

  datatype StoreRun = StoreRun(store: Store, calls: seq<NvsCall>)

  /** Every SetStr call is answered with success by `obs`. */
  predicate AllWritesSucceed(obs: StoreObs) {
    obs.openOk && obs.ssidSetOk && obs.passwordSetOk && obs.deviceIdSetOk
  }

  /** The three writes of the storing sequence, in the order the code issues them. */
  function Writes(slot: Slot): seq<NvsCall>
    requires Complete(slot)
  {
    [SetStr(KeySsid, slot.ssid.value), SetStr(KeyPassword, slot.password.value), SetStr(KeyDeviceId, slot.deviceId.value)]
  }

  /** How many writes are attempted: up to and including the first that fails. */
  function Attempted(obs: StoreObs): nat {
    if !obs.ssidSetOk then 1 else if !obs.passwordSetOk then 2 else 3
  }

  /**
   * `store_wifi_credentials_to_nvs`. Nothing is attempted without an ssid and
   * a password; the three writes go in the order ssid, password, device_id and
   * the first failing one returns without commit. The abstract store
   * publishes the staged writes when the commit succeeds.
   */
  function StoreCredentials(store: Store, slot: Slot, obs: StoreObs): (r: StoreRun)
    requires slot.ssid.Some? && slot.password.Some? ==> slot.deviceId.Some?
    ensures slot.ssid.None? || slot.password.None? ==> r == StoreRun(store, [])
    ensures Commit in r.calls <==> slot.ssid.Some? && slot.password.Some? && AllWritesSucceed(obs)
    ensures r.store != store ==> Commit in r.calls && obs.commitOk
    ensures Commit in r.calls && obs.commitOk ==>
              r.store == store[KeySsid := slot.ssid.value][KeyPassword := slot.password.value][KeyDeviceId := slot.deviceId.value]
  {
    if slot.ssid.None? || slot.password.None? then StoreRun(store, [])
    else if !obs.openOk then StoreRun(store, [Open])
    else
      var writes := Writes(slot)[..Attempted(obs)];
      if !AllWritesSucceed(obs) then StoreRun(store, [Open] + writes + [Close])
      else
        var calls := [Open] + writes + [Commit] + [Close];
        assert calls[4] == Commit;
        if obs.commitOk
        then StoreRun(store[KeySsid := slot.ssid.value][KeyPassword := slot.password.value][KeyDeviceId := slot.deviceId.value], calls)
        else StoreRun(store, calls)
  }

  /** The keys written by a call sequence, in order. */
  function SetKeys(calls: seq<NvsCall>): seq<string>
    decreases |calls|
  {
    if |calls| == 0 then []
    else (if calls[0].SetStr? then [calls[0].key] else []) + SetKeys(calls[1..])
  }

  lemma {:induction false} SetKeysAppend(xs: seq<NvsCall>, ys: seq<NvsCall>)
    ensures SetKeys(xs + ys) == SetKeys(xs) + SetKeys(ys)
    decreases |xs|
  {
    if |xs| == 0 {
      assert xs + ys == ys;
    } else {
      assert (xs + ys)[1..] == xs[1..] + ys;
      assert (xs + ys)[0] == xs[0];
      SetKeysAppend(xs[1..], ys);
    }
  }

  lemma {:induction false} SetKeysOfWrites(slot: Slot, n: nat)
    requires Complete(slot) && n <= 3
    ensures SetKeys(Writes(slot)[..n]) == [KeySsid, KeyPassword, KeyDeviceId][..n]
    decreases n
  {
    if n > 0 {
      var ws := Writes(slot);
      assert ws[..n] == ws[..n - 1] + [ws[n - 1]];
      SetKeysAppend(ws[..n - 1], [ws[n - 1]]);
      SetKeysOfWrites(slot, n - 1);
      assert [KeySsid, KeyPassword, KeyDeviceId][..n]
          == [KeySsid, KeyPassword, KeyDeviceId][..n - 1] + [[KeySsid, KeyPassword, KeyDeviceId][n - 1]];
    }
  }

  /**
   * The keys written are a prefix of ssid, password, device_id: the first
   * failure stops the sequence, and a fully successful run writes all three.
   */
  lemma StoreWriteOrder(store: Store, slot: Slot, obs: StoreObs)
    requires slot.ssid.Some? && slot.password.Some? ==> slot.deviceId.Some?
    ensures SetKeys(StoreCredentials(store, slot, obs).calls) <= [KeySsid, KeyPassword, KeyDeviceId]
    ensures AllWritesSucceed(obs) && slot.ssid.Some? && slot.password.Some? ==>
              SetKeys(StoreCredentials(store, slot, obs).calls) == [KeySsid, KeyPassword, KeyDeviceId]
  {
    var calls := StoreCredentials(store, slot, obs).calls;
    if slot.ssid.Some? && slot.password.Some? && obs.openOk {
      var n := Attempted(obs);
      var writes := Writes(slot)[..n];
      SetKeysOfWrites(slot, n);
      var tail := if AllWritesSucceed(obs) then [Commit, Close] else [Close];
      assert calls == [Open] + writes + tail;
      SetKeysAppend([Open] + writes, tail);
      SetKeysAppend([Open], writes);
      assert SetKeys([Open]) == [];
      assert SetKeys([Close]) == [];
      if AllWritesSucceed(obs) {
        SetKeysAppend([Commit], [Close]);
        assert [Commit] + [Close] == tail;
      }
      assert SetKeys(tail) == [];
    } else if slot.ssid.Some? && slot.password.Some? {
      assert SetKeys([Open]) == [];
    }
  }

  /**
   * The caller's destination buffers: `None` is a NULL pointer (the field is
   * skipped), `Some(s)` a buffer currently holding `s`.
   */
  datatype Dest = Dest(ssid: Option<string>, password: Option<string>, deviceId: Option<string>)

  /** One field of the reader: the stored string, or "" when the key is missing. */
  function ReadField(store: Store, key: string, dest: Option<string>): (r: Option<string>)
    ensures r.Some? <==> dest.Some?
    ensures r.Some? ==> (key in store ==> r.value == store[key]) && (key !in store ==> r.value == "")
  {
    match dest
    case None => None
    case Some(_) => Some(if key in store then store[key] else "")
  }

  /**
   * `nvs_read_wifi_credentials`. When the namespace cannot be opened every
   * destination keeps what it held.
   */
  function ReadCredentials(store: Store, openOk: bool, dest: Dest): (r: Dest)
    ensures !openOk ==> r == dest
    ensures (r.ssid.Some? <==> dest.ssid.Some?) && (r.password.Some? <==> dest.password.Some?)
            && (r.deviceId.Some? <==> dest.deviceId.Some?)
  {
    if !openOk then dest
    else Dest(ReadField(store, KeySsid, dest.ssid),
              ReadField(store, KeyPassword, dest.password),
              ReadField(store, KeyDeviceId, dest.deviceId))
  }

  /** A missing key reads as the empty string; a NULL destination stays NULL. */
  lemma ReadMissingIsEmpty(store: Store, dest: Dest)
    requires KeySsid !in store && dest.ssid.Some?
    ensures ReadCredentials(store, true, dest).ssid == Some("")
  {
  }

  /** After a fully successful store, a read returns the three stored strings. */
  lemma StoreThenRead(store: Store, slot: Slot, obs: StoreObs, dest: Dest)
    requires Complete(slot) && AllWritesSucceed(obs) && obs.commitOk
    requires dest.ssid.Some? && dest.password.Some? && dest.deviceId.Some?
    ensures ReadCredentials(StoreCredentials(store, slot, obs).store, true, dest)
            == Dest(slot.ssid, slot.password, slot.deviceId)
  {
  }

  /** Outcomes of the flash calls made by initialisation. */
  datatype FlashResult = FlashOk | NoFreePages | NewVersionFound | FlashError(code: int)

  datatype InitCall = FlashInit | FlashErase

  datatype InitRun = InitRun(calls: seq<InitCall>, result: FlashResult)

  /**
   * `nvs_init`: initialise; on "no free pages" or "new version found" erase
   * once and initialise once more, whatever the erase returned.
   */
  function Init(first: FlashResult, erase: FlashResult, second: FlashResult): (r: InitRun)
    ensures |r.calls| >= 1 && r.calls[0] == FlashInit
    ensures FlashErase in r.calls <==> first == NoFreePages || first == NewVersionFound
    ensures FlashErase in r.calls ==> r.calls == [FlashInit, FlashErase, FlashInit] && r.result == second
    ensures FlashErase !in r.calls ==> r.calls == [FlashInit] && r.result == first
  {
    if first == NoFreePages || first == NewVersionFound
    then InitRun([FlashInit, FlashErase, FlashInit], second)
    else InitRun([FlashInit], first)
  }
}

=== FILE: reassembly.dfy ===
/**
 * Long writes, collected in the value-B buffer whatever handle they name:
 * the server side of ATT queued writes (section 3.4.6 of the Bluetooth Core
 * Specification, Vol 3 Part F). Prepare-write
 * fragments are collected in one 1024-byte buffer that the first fragment
 * allocates; the execute request parses the buffer as JSON, hands legacy
 * credentials to the join, and releases the buffer.
 *
 * The model follows the C code where it leaves its buffers: the allocating
 * fragment is copied without a bounds check, the buffer is never
 * NUL-terminated, and the length is written into the 300-byte
 * `data_validation` array as an index. Each of these is recorded as a
 * `Fault` effect; the in-bounds part of the behaviour continues.
 */
module Reassembly {
  import opened Wrappers
  import opened Text
  import opened Json
  import opened Effects
  import opened Credentials
  import opened Join

  /** `PREPARE_BUF_MAX_SIZE`. */
  const PrepareBufSize: nat := 1024
  /** Size of the `data_validation` array. */
  const ValidationSize: nat := 300

  /** `prepare_type_env_t`: the buffer (`None` is NULL) and `prepare_len`. */
  datatype Env = Env(buf: Option<seq<Byte>>, len: int)

  const Idle := Env(None, 0)

  /** The shape every handler keeps: a full-size buffer, or no buffer and no length. */
  predicate ValidEnv(env: Env) {
    (env.buf.Some? ==> |env.buf.value| == PrepareBufSize)
    && (env.buf.None? ==> env.len == 0)
    && env.len >= 0
  }

  /** One prepare-write request. */
  datatype Fragment = Fragment(handle: int, offset: nat, value: seq<Byte>, needRsp: bool)

  datatype PrepareStep = PrepareStep(env: Env, effects: seq<Effect>)

  /** `memcpy(buf + offset, value, len)`, keeping only the bytes that land inside `buf`. */
  function Splice(buf: seq<Byte>, offset: nat, value: seq<Byte>): (r: seq<Byte>)
    ensures |r| == |buf|
    ensures forall i :: 0 <= i < |buf| ==> r[i] == (if offset <= i < offset + |value| then value[i - offset] else buf[i])
  {
    if offset >= |buf| then buf
    else if offset + |value| <= |buf| then buf[..offset] + value + buf[offset + |value|..]
    else buf[..offset] + value[..|buf| - offset]
  }

  /**
   * The status `example_prepare_write_event_env` computes: the allocating
   * fragment is judged only by the allocation, every later one by its
   * offset and then by its end.
   */
  function PrepareStatus(env: Env, f: Fragment, allocOk: bool): GattStatus {
    if env.buf.None? then (if allocOk then GattOk else NoResources)
    else if f.offset > PrepareBufSize then InvalidOffset
    else if f.offset + |f.value| > PrepareBufSize then InvalidAttrLen
    else GattOk
  }

  /**
   * `example_prepare_write_event_env`. `alloc` is what `malloc` returns for
   * the buffer (its uninitialised contents, or `None`), `rspAllocOk` whether
   * the response record could be allocated.
   */
  function PrepareWrite(env: Env, f: Fragment, alloc: Option<seq<Byte>>, rspAllocOk: bool): (r: PrepareStep)
    requires ValidEnv(env)
    requires alloc.Some? ==> |alloc.value| == PrepareBufSize
    ensures ValidEnv(r.env)
    ensures f.needRsp && rspAllocOk <==> |r.effects| > 0 && r.effects[0].WriteResponse?
    ensures f.needRsp && rspAllocOk ==>
              r.effects[0] == WriteResponse(PrepareStatus(env, f, alloc.Some?), Some(AttrValue(f.handle, f.offset, f.value)))
    ensures env.buf.Some? && PrepareStatus(env, f, alloc.Some?) != GattOk ==> r.env == env
    ensures env.buf.Some? && PrepareStatus(env, f, alloc.Some?) == GattOk ==>
              r.env.len == env.len + |f.value| && r.env.buf.Some?
              && r.env.buf.value[f.offset..f.offset + |f.value|] == f.value
              && forall i :: 0 <= i < PrepareBufSize && !(f.offset <= i < f.offset + |f.value|) ==>
                   r.env.buf.value[i] == env.buf.value[i]
    ensures env.buf.None? && alloc.None? ==> r.env == Idle
    ensures env.buf.None? && alloc.Some? ==> r.env.buf.Some? && r.env.len == |f.value|
    ensures Fault(PrepareBufferOverflow(f.offset, |f.value|)) in r.effects <==>
              env.buf.None? && alloc.Some? && f.offset + |f.value| > PrepareBufSize
  {
    var status := PrepareStatus(env, f, alloc.Some?);
    var response :=
      if f.needRsp && rspAllocOk then [WriteResponse(status, Some(AttrValue(f.handle, f.offset, f.value)))] else [];
    if status != GattOk then
      PrepareStep(if env.buf.None? then Idle else env, response)
    else
      var base := if env.buf.Some? then env.buf.value else alloc.value;
      var len := if env.buf.Some? then env.len else 0;
      var overflow :=
        if f.offset + |f.value| > PrepareBufSize then [Fault(PrepareBufferOverflow(f.offset, |f.value|))] else [];
      var buf := Splice(base, f.offset, f.value);
      assert env.buf.Some? ==> buf[f.offset..f.offset + |f.value|] == f.value;
      PrepareStep(Env(Some(buf), len + |f.value|), response + overflow)
  }

  /** The rule the status follows, case by case. */
  lemma PrepareChecks(env: Env, f: Fragment, allocOk: bool)
    ensures PrepareStatus(env, f, allocOk) == NoResources <==> env.buf.None? && !allocOk
    ensures PrepareStatus(env, f, allocOk) == InvalidOffset <==> env.buf.Some? && f.offset > PrepareBufSize
    ensures PrepareStatus(env, f, allocOk) == InvalidAttrLen <==>
              env.buf.Some? && f.offset <= PrepareBufSize < f.offset + |f.value|
    ensures env.buf.None? && allocOk ==> PrepareStatus(env, f, allocOk) == GattOk
  {
  }

  /** The values of a fragment sequence, concatenated. */
  function Values(frags: seq<Fragment>): (r: seq<Byte>)
    decreases |frags|
  {
    if |frags| == 0 then [] else frags[0].value + Values(frags[1..])
  }

  /** Each fragment starts where the previous one ended, the first at `at`. */
  predicate Contiguous(frags: seq<Fragment>, at: nat)
    decreases |frags|
  {
    |frags| == 0 || (frags[0].offset == at && Contiguous(frags[1..], at + |frags[0].value|))
  }

  /** A sequence of fragments, every allocation returning `initial` and every response allocated. */
  function Feed(env: Env, frags: seq<Fragment>, initial: seq<Byte>): (r: Env)
    requires ValidEnv(env) && |initial| == PrepareBufSize
    ensures ValidEnv(r)
    decreases |frags|
  {
    if |frags| == 0 then env
    else Feed(PrepareWrite(env, frags[0], Some(initial), true).env, frags[1..], initial)
  }

  /**
   * Contiguous fragments that fit reassemble into their concatenation: the
   * buffer starts with the values in order and the length is their total.
   */
  lemma {:induction false} FeedContiguous(env: Env, frags: seq<Fragment>, initial: seq<Byte>, at: nat)
    requires ValidEnv(env) && |initial| == PrepareBufSize && env.buf.Some?
    requires env.len == at && Contiguous(frags, at) && at + |Values(frags)| <= PrepareBufSize
    ensures Feed(env, frags, initial).buf.Some?
    ensures Feed(env, frags, initial).len == at + |Values(frags)|
    ensures Feed(env, frags, initial).buf.value[..at + |Values(frags)|] == env.buf.value[..at] + Values(frags)
    decreases |frags|
  {
    if |frags| > 0 {
      var f := frags[0];
      var next := PrepareWrite(env, f, Some(initial), true).env;
      var n := at + |f.value|;
      FeedStep(env, f, initial, at);
      FeedContiguous(next, frags[1..], initial, n);
      PrefixJoin(Feed(next, frags[1..], initial).buf.value, next.buf.value[..n], env.buf.value[..at], f.value,
                 Values(frags[1..]), n);
    }
  }

  /** One contiguous fragment extends the prefix by its value. */
  lemma FeedStep(env: Env, f: Fragment, initial: seq<Byte>, at: nat)
    requires ValidEnv(env) && |initial| == PrepareBufSize && env.buf.Some?
    requires env.len == at && f.offset == at && at + |f.value| <= PrepareBufSize
    ensures var next := PrepareWrite(env, f, Some(initial), true).env;
      next.buf.Some? && next.len == at + |f.value|
      && next.buf.value[..at + |f.value|] == env.buf.value[..at] + f.value
  {
    var next := PrepareWrite(env, f, Some(initial), true).env;
    assert next.buf.value[at..at + |f.value|] == f.value;
    assert next.buf.value[..at] == env.buf.value[..at];
    assert next.buf.value[..at + |f.value|] == next.buf.value[..at] + next.buf.value[at..at + |f.value|];
  }

  /** Sequence bookkeeping for `FeedContiguous`. */
  lemma PrefixJoin(last: seq<Byte>, mid: seq<Byte>, head: seq<Byte>, v: seq<Byte>, rest: seq<Byte>, n: nat)
    requires n + |rest| <= |last| && mid == head + v && |mid| == n
    requires last[..n + |rest|] == mid + rest
    ensures last[..|head| + |v + rest|] == head + (v + rest)
  {
    assert head + v + rest == head + (v + rest);
  }

  /**
   * A long write sent as contiguous fragments from offset 0, at most 1024
   * bytes in all, leaves exactly those bytes at the start of the buffer and
   * their total as the length.
   */
  lemma Reassemble(frags: seq<Fragment>, initial: seq<Byte>)
    requires |initial| == PrepareBufSize && |frags| > 0
    requires Contiguous(frags, 0) && |Values(frags)| <= PrepareBufSize
    ensures Feed(Idle, frags, initial).buf.Some?
    ensures Feed(Idle, frags, initial).len == |Values(frags)|
    ensures Feed(Idle, frags, initial).buf.value[..|Values(frags)|] == Values(frags)
  {
    var f := frags[0];
    var first := PrepareWrite(Idle, f, Some(initial), true).env;
    assert Values(frags) == f.value + Values(frags[1..]);
    assert first.buf.value[..|f.value|] == f.value;
    FeedContiguous(first, frags[1..], initial, |f.value|);
  }

  /**
   * `prepare_len` counts bytes received, not the extent written: a fragment
   * sent twice at offset 0 leaves a length twice the data it covers.
   */
  lemma LengthCountsResends(v: seq<Byte>, initial: seq<Byte>)
    requires |initial| == PrepareBufSize && 0 < |v| <= PrepareBufSize
    ensures var f := Fragment(0, 0, v, false);
      Feed(Idle, [f, f], initial).len == 2 * |v|
  {
    var f := Fragment(0, 0, v, false);
    var one := PrepareWrite(Idle, f, Some(initial), true).env;
    var two := PrepareWrite(one, f, Some(initial), true).env;
    assert one.len == |v|;
    assert two.len == 2 * |v|;
    assert [f, f][1..] == [f];
    assert [f][1..] == [];
    assert Feed(two, [], initial) == two;
    assert Feed(one, [f], initial) == two;
  }

  /** Two fragments of 500 and 50 bytes make 550; a fragment at 1000 of 100 bytes is refused. */
  lemma FragmentExamples(a: seq<Byte>, b: seq<Byte>, c: seq<Byte>, initial: seq<Byte>)
    requires |initial| == PrepareBufSize && |a| == 500 && |b| == 50 && |c| == 100
    ensures var env := Feed(Idle, [Fragment(0, 0, a, true), Fragment(0, 500, b, true)], initial);
      env.len == 550 && env.buf.value[..550] == a + b
    ensures var env := Feed(Idle, [Fragment(0, 0, a, true), Fragment(0, 500, b, true)], initial);
      PrepareWrite(env, Fragment(0, 1000, c, true), Some(initial), true)
        == PrepareStep(env, [WriteResponse(InvalidAttrLen, Some(AttrValue(0, 1000, c)))])
  {
    var frags := [Fragment(0, 0, a, true), Fragment(0, 500, b, true)];
    assert frags[1..] == [frags[1]] && frags[1..][1..] == [];
    assert Values(frags) == a + b by {
      assert Values(frags[1..]) == b + Values([]);
    }
    assert Contiguous(frags, 0) by {
      assert Contiguous(frags[1..], 500);
    }
    Reassemble(frags, initial);
  }

  /** The allocating fragment is never checked: one starting past the buffer is accepted and overflows it. */
  lemma FirstFragmentUnchecked(v: seq<Byte>, initial: seq<Byte>)
    requires |initial| == PrepareBufSize && |v| > 0
    ensures var r := PrepareWrite(Idle, Fragment(0, 2000, v, true), Some(initial), true);
      r.effects[0] == WriteResponse(GattOk, Some(AttrValue(0, 2000, v)))
      && Fault(PrepareBufferOverflow(2000, |v|)) in r.effects
      && r.env.len == |v|
  {
  }

  datatype ExecStep = ExecStep(env: Env, slot: Slot, effects: seq<Effect>)

  /** The legacy credential items of a parsed long write. */
  function LegacyItems(root: Json): (Option<Json>, Option<Json>, Option<Json>) {
    (Get(root, "SSID"), Get(root, "PASSWORD"), Get(root, "device_id"))
  }

  /** What the caller must guarantee of a parsed long write: `device_id` is copied unchecked. */
  predicate LegacyAdmissible(root: Json) {
    var (ssid, password, deviceId) := LegacyItems(root);
    DeviceIdFollows(ssid, password, deviceId)
  }

  /**
   * The execute-write event: parse the buffer as a C string, hand legacy
   * `SSID`/`PASSWORD` items to the join, then `example_exec_write_event_env`,
   * which writes the terminator at `data_validation[prepare_len]` and
   * releases the buffer. `execFlag` distinguishes execute from cancel; the
   * code only logs it. A parse failure returns before the release.
   */
  function Exec(env: Env, slot: Slot, execFlag: bool, parse: string -> Option<Json>, obs: JoinObs): (r: ExecStep)
    requires ValidEnv(env) && Valid(slot)
    requires env.buf.Some? && parse(CString(env.buf.value)).Some? ==> LegacyAdmissible(parse(CString(env.buf.value)).value)
    ensures ValidEnv(r.env) && Valid(r.slot)
    ensures env.buf.None? ==> r == ExecStep(env, slot, [])
    ensures env.buf.Some? && parse(CString(env.buf.value)).None? ==> r.env == env && r.slot == slot
    ensures env.buf.Some? && parse(CString(env.buf.value)).Some? ==> r.env == Idle
    ensures Fault(UnterminatedPrepareBuffer) in r.effects <==> env.buf.Some? && NUL !in env.buf.value
    ensures Fault(ValidationIndexOutOfRange(env.len)) in r.effects <==>
              env.buf.Some? && parse(CString(env.buf.value)).Some? && env.len >= ValidationSize
  {
    if env.buf.None? then ExecStep(env, slot, [])
    else
      var text := CString(env.buf.value);
      var unterminated := if NUL in env.buf.value then [] else [Fault(UnterminatedPrepareBuffer)];
      match parse(text)
      case None => ExecStep(env, slot, unterminated)
      case Some(root) =>
        var (ssid, password, deviceId) := LegacyItems(root);
        var join := if ssid.Some? && password.Some? then ProvideCredentials(slot, ssid, password, deviceId, obs)
                    else JoinResult(slot, []);
        var overrun := if env.len >= ValidationSize then [Fault(ValidationIndexOutOfRange(env.len))] else [];
        assert Fault(UnterminatedPrepareBuffer) !in join.effects && Fault(ValidationIndexOutOfRange(env.len)) !in join.effects
          by { JoinFaultFree(slot, ssid, password, deviceId, obs); }
        ExecStep(Idle, join.slot, unterminated + join.effects + overrun)
  }

  /** The join never records a fault. */
  lemma JoinFaultFree(slot: Slot, ssid: Option<Json>, password: Option<Json>, deviceId: Option<Json>, obs: JoinObs)
    requires Valid(slot) && DeviceIdFollows(ssid, password, deviceId)
    ensures forall e :: e in ProvideCredentials(slot, ssid, password, deviceId, obs).effects ==> !e.Fault?
  {
    ProvideEffects(slot, ssid, password, deviceId, obs);
  }

  /** Execute and cancel are handled alike: a cancelled long write is still parsed and acted on. */
  lemma CancelActsLikeExecute(env: Env, slot: Slot, parse: string -> Option<Json>, obs: JoinObs)
    requires ValidEnv(env) && Valid(slot)
    requires env.buf.Some? && parse(CString(env.buf.value)).Some? ==> LegacyAdmissible(parse(CString(env.buf.value)).value)
    ensures Exec(env, slot, false, parse, obs) == Exec(env, slot, true, parse, obs)
  {
  }

  /**
   * After an execute whose text does not parse, the next long write lands in
   * the old buffer: a fragment at offset 0 is checked rather than
   * allocating, and the length continues from the stale one.
   */
  lemma StaleBufferSurvives(env: Env, slot: Slot, parse: string -> Option<Json>, obs: JoinObs, f: Fragment, initial: seq<Byte>)
    requires ValidEnv(env) && Valid(slot) && env.buf.Some? && parse(CString(env.buf.value)).None?
    requires |initial| == PrepareBufSize && f.offset == 0 && |f.value| <= PrepareBufSize
    ensures var after := Exec(env, slot, true, parse, obs).env;
      PrepareWrite(after, f, Some(initial), true).env.len == env.len + |f.value|
      && PrepareWrite(after, f, Some(initial), true).env.buf.value[|f.value|..] == env.buf.value[|f.value|..]
  {
    var after := Exec(env, slot, true, parse, obs).env;
    var r := PrepareWrite(after, f, Some(initial), true).env;
    assert forall i :: |f.value| <= i < PrepareBufSize ==> r.buf.value[i] == env.buf.value[i];
  }
}

=== FILE: scan.dfy ===
/**
 * The scan path: `scan_wifi_networks`, which resets the station, starts a
 * blocking scan with up to three attempts and writes the hand-built
 * `scan_list` text into a 1000-byte buffer, and `wifi_scan_callback_task`,
 * which runs it for one BLE request and indicates the text on value B.
 */
module Scan {
  import opened Wrappers
  import opened Text
  import opened Json
  import opened Effects

  /** Size of the response buffer every `snprintf` is bounded by. */
  const ResponseSize: nat := 1000
  /** Records fetched from the driver at most. */
  const MaxRecords: nat := 15
  /** Past this many bytes the listing stops after the current entry. */
  const SoftLimit: nat := 900
  /** Scan start attempts at most. */
  const StartAttempts: nat := 3

  const ListPrefix: string := "{\"event_type\":\"scan_list\",\"data\":{"
  const ListSuffix: string := "}}"
  const NoApList: string := ListPrefix + ListSuffix

  /** The error listing: `{"event_type":"scan_list","data":{"error":"<name>"}}`. */
  function ErrorList(name: string): (r: string)
    ensures ListPrefix <= r && |r| == |ListPrefix| + |name| + 12
  {
    ListPrefix + "\"error\":\"" + name + "\"}}"
  }

  const NotStationMode: string := ErrorList("WiFi not in station mode")
  const RecordsAllocFailed: string := ErrorList("malloc_failed_ap_records")

  /** One access point record: the ssid bytes as C text and the signal strength. */
  datatype ApRecord = ApRecord(ssid: seq<Byte>, rssi: int)

  /** What the driver delivers: a 33-byte ssid field (at most 32 characters) and an `int8_t` rssi. */
  predicate ValidRecord(ap: ApRecord) {
    |ap.ssid| <= 32 && NUL !in ap.ssid && -128 <= ap.rssi <= 127
  }

  predicate ValidRecords(aps: seq<ApRecord>) {
    forall i :: 0 <= i < |aps| ==> ValidRecord(aps[i])
  }

  /** The entry `"ssid":"rssi"` for one access point. */
  function Entry(ap: ApRecord): (r: string)
    ensures ValidRecord(ap) ==> |r| <= 41
  {
    "\"" + ap.ssid + "\":\"" + DecimalString(ap.rssi) + "\""
  }

  /**
   * The listing loop from a given point: `out` is the text so far, `first`
   * whether no entry has been written. Empty ssids are skipped; an entry
   * that takes the text past `SoftLimit` is the last one.
   */
  function Listing(aps: seq<ApRecord>, out: string, first: bool): string
    decreases |aps|
  {
    if |aps| == 0 then out
    else if |aps[0].ssid| == 0 then Listing(aps[1..], out, first)
    else
      var next := out + (if first then "" else ",") + Entry(aps[0]);
      if |next| > SoftLimit then next else Listing(aps[1..], next, false)
  }

  /** The listing text for the fetched records. */
  function ScanList(aps: seq<ApRecord>): string {
    Listing(aps, ListPrefix, true) + ListSuffix
  }

  /** One step of the listing. */
  lemma ListingStep(aps: seq<ApRecord>, out: string, first: bool)
    requires |aps| > 0
    ensures |aps[0].ssid| == 0 ==> Listing(aps, out, first) == Listing(aps[1..], out, first)
    ensures |aps[0].ssid| > 0 ==>
      var next := out + (if first then "" else ",") + Entry(aps[0]);
      Listing(aps, out, first) == if |next| > SoftLimit then next else Listing(aps[1..], next, false)
  {
  }

  /** The loop of `scan_wifi_networks` that writes the listing. */
  method BuildScanList(aps: seq<ApRecord>) returns (resp: string)
    ensures resp == ScanList(aps)
  {
    var out := ListPrefix;
    var first := true;
    var i := 0;
    ghost var listing := Listing(aps, ListPrefix, true);
    while i < |aps|
      invariant 0 <= i <= |aps|
      invariant Listing(aps[i..], out, first) == listing
    {
      ListingStep(aps[i..], out, first);
      assert aps[i..][0] == aps[i] && aps[i..][1..] == aps[i + 1..];
      if |aps[i].ssid| == 0 {
        i := i + 1;
        continue;
      }
      ghost var next := out + (if first then "" else ",") + Entry(aps[i]);
      if !first {
        out := out + ",";
      } else {
        assert out + "" == out;
      }
      out := out + Entry(aps[i]);
      assert out == next;
      first := false;
      if |out| > SoftLimit {
        assert out == listing;
        break;
      }
      i := i + 1;
    }
    assert out == listing;
    resp := out + ListSuffix;
  }

  /**
   * Every intermediate text stays below the buffer: an entry starts at most at
   * `SoftLimit` and adds at most 42 bytes, so no `snprintf` of the loop ever
   * truncates, whatever the number of records.
   */
  lemma {:induction false} ListingBound(aps: seq<ApRecord>, out: string, first: bool)
    requires ValidRecords(aps) && |out| <= SoftLimit
    ensures out <= Listing(aps, out, first)
    ensures |Listing(aps, out, first)| <= SoftLimit + 42
    decreases |aps|
  {
    if |aps| > 0 {
      if |aps[0].ssid| == 0 {
        ListingBound(aps[1..], out, first);
      } else {
        var next := out + (if first then "" else ",") + Entry(aps[0]);
        if |next| <= SoftLimit {
          ListingBound(aps[1..], next, false);
        }
      }
    }
  }

  /** The listing always fits the 1000-byte buffer with its terminator, and starts with the prefix. */
  lemma ScanListBound(aps: seq<ApRecord>)
    requires ValidRecords(aps)
    ensures ListPrefix <= ScanList(aps)
    ensures |ScanList(aps)| <= SoftLimit + 44 < ResponseSize
  {
    ListingBound(aps, ListPrefix, true);
  }

  // The reference: the JSON text of {"event_type":"scan_list","data":{ssid: rssi, ...}}.

  /** The (ssid, rssi text) pairs of the records with a non-empty ssid, in order. */
  function Pairs(aps: seq<ApRecord>): (r: seq<(string, string)>)
    ensures |r| <= |aps|
    decreases |aps|
  {
    if |aps| == 0 then []
    else if |aps[0].ssid| == 0 then Pairs(aps[1..])
    else [(aps[0].ssid, DecimalString(aps[0].rssi))] + Pairs(aps[1..])
  }

  /** The document as a value. */
  function ScanDocument(aps: seq<ApRecord>): Json {
    JObject([Member("event_type", JString("scan_list")), Member("data", StringObject(Pairs(aps)))])
  }

  /** The JSON text of `ScanDocument(aps)`: fixed keys, then the generic encoding of the `data` object. */
  function DocumentText(aps: seq<ApRecord>): string {
    DocumentHead + ObjectText(Pairs(aps)) + "}"
  }

  const DocumentHead: string := "{\"event_type\":\"scan_list\",\"data\":"

  lemma BracesAround(head: string, m: string)
    ensures head + ("{" + m + "}") + "}" == (head + "{") + m + "}}"
  {
  }

  /** The firmware's fixed prefix is the document head and the opening brace of `data`. */
  lemma DocumentHeadIsPrefix()
    ensures DocumentHead + "{" == ListPrefix
  {
  }

  /** Members after the first: each preceded by a comma. */
  function CommaMembers(pairs: seq<(string, string)>): string {
    if |pairs| == 0 then "" else "," + MembersText(pairs)
  }

  lemma MembersTextCons(p: (string, string), rest: seq<(string, string)>)
    ensures MembersText([p] + rest) == Quote(p.0) + ":" + Quote(p.1) + CommaMembers(rest)
  {
    assert ([p] + rest)[1..] == rest;
  }

  /** The rssi text is plain: a sign and digits. */
  lemma DecimalPlain(n: int)
    ensures Plain(DecimalString(n))
  {
  }

  /** With plain ssids, an entry is the member text of its pair. */
  lemma EntryIsMember(ap: ApRecord)
    requires Plain(ap.ssid)
    ensures Entry(ap) == Quote(ap.ssid) + ":" + Quote(DecimalString(ap.rssi))
  {
    EscapePlain(ap.ssid);
    DecimalPlain(ap.rssi);
    EscapePlain(DecimalString(ap.rssi));
  }

  /** Printable ASCII: bytes that read as the same characters whatever encoding the client assumes. */
  predicate Ascii(s: string) {
    forall i :: 0 <= i < |s| ==> s[i] <= '~'
  }

  /** Every ssid is printable ASCII other than the quote and the backslash. */
  predicate PlainSsids(aps: seq<ApRecord>) {
    forall i :: 0 <= i < |aps| ==> Plain(aps[i].ssid) && Ascii(aps[i].ssid)
  }

  /** While the limit cannot be reached, the loop writes exactly the member texts of the pairs. */
  lemma {:induction false} ListingUnbroken(aps: seq<ApRecord>, out: string, first: bool)
    requires ValidRecords(aps) && PlainSsids(aps)
    requires |out| + 42 * |aps| <= SoftLimit
    ensures Listing(aps, out, first) == out + (if first then MembersText(Pairs(aps)) else CommaMembers(Pairs(aps)))
    decreases |aps|
  {
    if |aps| > 0 {
      TailRecords(aps);
      if |aps[0].ssid| == 0 {
        ListingUnbroken(aps[1..], out, first);
      } else {
        var next := out + (if first then "" else ",") + Entry(aps[0]);
        ListingUnbroken(aps[1..], next, false);
        EntryStep(aps[0], Pairs(aps[1..]), out, first);
      }
    }
  }

  /** The tail of valid, plain records is valid and plain, and so is the head. */
  lemma TailRecords(aps: seq<ApRecord>)
    requires |aps| > 0 && ValidRecords(aps) && PlainSsids(aps)
    ensures ValidRecord(aps[0]) && Plain(aps[0].ssid)
    ensures ValidRecords(aps[1..]) && PlainSsids(aps[1..])
  {
    forall i | 0 <= i < |aps| - 1 ensures ValidRecord(aps[1..][i]) && Plain(aps[1..][i].ssid) && Ascii(aps[1..][i].ssid) {
      assert aps[1..][i] == aps[i + 1];
    }
  }

  /** Writing one plain entry extends the member text by the record's pair. */
  lemma EntryStep(ap: ApRecord, rest: seq<(string, string)>, out: string, first: bool)
    requires Plain(ap.ssid)
    ensures var p := (ap.ssid, DecimalString(ap.rssi));
      out + (if first then "" else ",") + Entry(ap) + CommaMembers(rest)
      == out + (if first then MembersText([p] + rest) else CommaMembers([p] + rest))
  {
    var p := (ap.ssid, DecimalString(ap.rssi));
    EntryPieces(ap, rest);
    StringAssoc(out, if first then "" else ",", Entry(ap), CommaMembers(rest));
  }

  /** An entry followed by the rest is the member text of its pair and the rest. */
  lemma EntryPieces(ap: ApRecord, rest: seq<(string, string)>)
    requires Plain(ap.ssid)
    ensures var p := (ap.ssid, DecimalString(ap.rssi));
      MembersText([p] + rest) == Entry(ap) + CommaMembers(rest)
      && CommaMembers([p] + rest) == "," + (Entry(ap) + CommaMembers(rest))
  {
    var p := (ap.ssid, DecimalString(ap.rssi));
    MembersTextCons(p, rest);
    EntryIsMember(ap);
  }

  lemma StringAssoc(a: string, b: string, c: string, d: string)
    ensures a + b + c + d == a + (b + (c + d))
    ensures a + "" + c + d == a + (c + d)
  {
  }

  lemma QuotePlain(s: string)
    requires Plain(s)
    ensures Quote(s) == "\"" + s + "\""
  {
    EscapePlain(s);
  }

  /**
   * The text is the JSON encoding of `ScanDocument` when at most `MaxRecords`
   * records are listed and every ssid is printable ASCII without a quote or
   * a backslash: the firmware writes ssid bytes without escaping them, and
   * outside ASCII the bytes are text only under a one-byte-per-character
   * reading.
   */
  lemma ScanListIsDocument(aps: seq<ApRecord>)
    requires ValidRecords(aps) && PlainSsids(aps) && |aps| <= MaxRecords
    ensures ScanList(aps) == DocumentText(aps)
  {
    var m := MembersText(Pairs(aps));
    assert 42 * |aps| <= 42 * MaxRecords;
    ListingUnbroken(aps, ListPrefix, true);
    DocumentHeadIsPrefix();
    BracesAround(DocumentHead, m);
  }

  /**
   * The error listing is the JSON text of the document whose `data` object
   * holds one member, `error`, with the name, when the name needs no escape.
   */
  lemma ErrorListIsDocument(name: string)
    requires Plain(name)
    ensures ErrorList(name) == DocumentHead + ObjectText([("error", name)]) + "}"
  {
    var q, qe := "\"", "\"error\"";
    assert Quote(name) == q + name + q by { QuotePlain(name); }
    assert Quote("error") == qe by { QuotePlain("error"); }
    assert MembersText([("error", name)]) == Quote("error") + ":" + Quote(name);
    assert qe + ":" + q == "\"error\":\"";
    assert q + "}" + "}" == "\"}}";
    DocumentHeadIsPrefix();
    ErrorListShape(DocumentHead, ListPrefix, qe, ":", q, name, "\"error\":\"", "\"}}");
  }

  /** Local proof helper: regrouping the error listing around its member text. */
  lemma ErrorListShape(head: string, prefix: string, qe: string, colon: string, q: string, name: string, open: string, close: string)
    requires head + "{" == prefix && qe + colon + q == open && q + "}" + "}" == close
    ensures head + ("{" + (qe + colon + (q + name + q)) + "}") + "}" == prefix + open + name + close
  {
  }

  /** With at most `MaxRecords` records the `SoftLimit` rule never ends the listing early. */
  lemma {:induction false} SoftLimitNeverFires(aps: seq<ApRecord>, out: string, first: bool)
    requires ValidRecords(aps) && |out| + 42 * |aps| <= SoftLimit
    ensures |Listing(aps, out, first)| <= |out| + 42 * |aps|
    ensures |Pairs(aps)| == 0 ==> Listing(aps, out, first) == out
    decreases |aps|
  {
    if |aps| > 0 {
      assert ValidRecords(aps[1..]) by {
        forall i | 0 <= i < |aps| - 1 ensures ValidRecord(aps[1..][i]) {
          assert aps[1..][i] == aps[i + 1];
        }
      }
      if |aps[0].ssid| == 0 {
        SoftLimitNeverFires(aps[1..], out, first);
      } else {
        assert ValidRecord(aps[0]);
        SoftLimitNeverFires(aps[1..], out + (if first then "" else ",") + Entry(aps[0]), false);
      }
    }
  }

  /** An ssid with a quote in it yields text that is not the document's encoding. */
  lemma UnescapedSsidBreaksDocument()
    ensures ScanList([ApRecord("\"", -50)]) != DocumentText([ApRecord("\"", -50)])
  {
    var aps := [ApRecord("\"", -50)];
    QuoteRecordPieces();
    assert |ScanList(aps)| == 45;
    assert MembersText(Pairs(aps)) == Quote("\"") + ":" + Quote("-50");
    assert |DocumentText(aps)| >= |ListPrefix| + |Quote("\"")| + 1 + |Quote("-50")| + 2;
  }

  /** Local proof helper: the pieces of the one-record listing above. */
  lemma QuoteRecordPieces()
    ensures DecimalString(-50) == "-50"
    ensures Pairs([ApRecord("\"", -50)]) == [("\"", "-50")]
    ensures Escape("\"") == "\\\""
    ensures Escape("-50") == "-50"
  {
    var aps := [ApRecord("\"", -50)];
    assert aps[1..] == [];
    assert DecimalString(-50) == "-50" by {
      assert Digits(5) == "5";
      assert Digits(50) == Digits(5) + [DigitChar(0)];
    }
    assert Escape("\"") == "\\\"" by {
      assert "\""[1..] == "";
    }
    assert Plain("-50");
    EscapePlain("-50");
  }

  /**
   * The start loop: attempt after attempt until one succeeds or the answers
   * run out; each failure is followed by a station stop and start. `errs[k]`
   * is the driver's answer to attempt k (`None` for success, else the error
   * name). The result is the effects and the final error.
   */
  function StartLoop(errs: seq<Option<string>>): (r: (seq<Effect>, Option<string>))
    requires |errs| >= 1
    ensures r.1.None? <==> None in errs
    ensures r.1.Some? ==> r.1 == errs[|errs| - 1]
    ensures forall i :: 0 <= i < |r.0| ==> r.0[i] == ScanStart || r.0[i] == WifiStop || r.0[i] == WifiStart
    decreases |errs|
  {
    if errs[0].None? then ([ScanStart], None)
    else if |errs| == 1 then ([ScanStart, WifiStop, WifiStart], errs[0])
    else
      var rest := StartLoop(errs[1..]);
      assert None in errs <==> None in errs[1..];
      ([ScanStart, WifiStop, WifiStart] + rest.0, rest.1)
  }

  /**
   * One start call per attempt: the loop stops at the first success, and
   * makes as many attempts as there are answers when none succeeds.
   */
  lemma {:induction false} StartLoopAttempts(errs: seq<Option<string>>)
    requires |errs| >= 1
    ensures 1 <= Count(StartLoop(errs).0, ScanStart) <= |errs|
    ensures forall j :: 0 <= j < Count(StartLoop(errs).0, ScanStart) - 1 ==> errs[j].Some?
    ensures None in errs ==> errs[Count(StartLoop(errs).0, ScanStart) - 1].None?
    ensures None !in errs ==> Count(StartLoop(errs).0, ScanStart) == |errs|
    decreases |errs|
  {
    if errs[0].None? || |errs| == 1 {
      RetryCounts();
    } else {
      StartLoopAttempts(errs[1..]);
      RetryStep(errs);
    }
  }

  /** A failed first attempt adds one start call in front of the remaining attempts. */
  lemma RetryStep(errs: seq<Option<string>>)
    requires |errs| > 1 && errs[0].Some?
    requires var m := Count(StartLoop(errs[1..]).0, ScanStart);
      1 <= m <= |errs| - 1
      && (forall j :: 0 <= j < m - 1 ==> errs[1..][j].Some?)
      && (None in errs[1..] ==> errs[1..][m - 1].None?)
      && (None !in errs[1..] ==> m == |errs| - 1)
    ensures 1 <= Count(StartLoop(errs).0, ScanStart) <= |errs|
    ensures forall j :: 0 <= j < Count(StartLoop(errs).0, ScanStart) - 1 ==> errs[j].Some?
    ensures None in errs ==> errs[Count(StartLoop(errs).0, ScanStart) - 1].None?
    ensures None !in errs ==> Count(StartLoop(errs).0, ScanStart) == |errs|
  {
    var tail := StartLoop(errs[1..]);
    RetryCounts();
    CountAppend([ScanStart, WifiStop, WifiStart], tail.0, ScanStart);
    ShiftAttempts(errs, Count(tail.0, ScanStart));
    assert None in errs <==> None in errs[1..];
  }

  /** The facts about the attempts after the first, moved one index up. */
  lemma ShiftAttempts(errs: seq<Option<string>>, m: nat)
    requires |errs| > 1 && errs[0].Some? && 1 <= m <= |errs| - 1
    requires forall j :: 0 <= j < m - 1 ==> errs[1..][j].Some?
    requires None in errs[1..] ==> errs[1..][m - 1].None?
    ensures forall j :: 0 <= j < m ==> errs[j].Some?
    ensures None in errs ==> errs[m].None?
  {
    assert None in errs <==> None in errs[1..];
    forall j | 0 <= j < m ensures errs[j].Some? {
      if j > 0 {
        assert errs[j] == errs[1..][j - 1];
      }
    }
    if None in errs {
      assert errs[m] == errs[1..][m - 1];
    }
  }

  /** A successful attempt and a failed one each make one start call. */
  lemma RetryCounts()
    ensures Count([ScanStart], ScanStart) == 1
    ensures Count([ScanStart, WifiStop, WifiStart], ScanStart) == 1
  {
    var retry := [ScanStart, WifiStop, WifiStart];
    assert [ScanStart][1..] == [];
    assert retry[1..] == [WifiStop, WifiStart];
    assert retry[1..][1..] == [WifiStart];
    assert retry[1..][1..][1..] == [];
  }

  /** The error listing `snprintf` writes for a failed start. */
  function StartErrorList(name: string): (r: string)
    ensures ListPrefix <= r && |r| < ResponseSize
    ensures |ErrorList(name)| < ResponseSize ==> r == ErrorList(name)
    ensures r <= ErrorList(name)
  {
    Truncated(ErrorList(name), ResponseSize)
  }

  /** What the driver answers during one scan. */
  datatype ScanObs = ScanObs(
    stationMode: bool,                // esp_wifi_get_mode is STA or APSTA
    startErrors: seq<Option<string>>, // answer to each start attempt
    found: seq<ApRecord>,             // the records the scan found, strongest first
    recordsAllocOk: bool,             // malloc of the record array
    isConnected: bool)                // the `is_connected` flag

  datatype ScanResult = ScanResult(response: string, effects: seq<Effect>)

  /** The station reset before a scan: disconnect, clear CONNECTED, set FAIL, stop any scan. */
  const Reset: seq<Effect> := [WifiDisconnect, ClearBits(Bits(true, false)), SetBits(Bits(false, true)), ScanStop]

  /** A scan reached its listing: station mode, a successful start, and records (if any) fetched. */
  predicate Completes(obs: ScanObs) {
    obs.stationMode && None in obs.startErrors && (|obs.found| == 0 || obs.recordsAllocOk)
  }

  /** `scan_wifi_networks`. */
  function ScanNetworks(obs: ScanObs): (r: ScanResult)
    requires |obs.startErrors| == StartAttempts && ValidRecords(obs.found)
    ensures |r.effects| >= 1 && r.effects[0] == WifiDisconnect
    ensures ListPrefix <= r.response && |r.response| < ResponseSize
    ensures !obs.stationMode ==> r == ScanResult(NotStationMode, [WifiDisconnect])
    ensures obs.stationMode ==> |r.effects| >= 4 && r.effects[..4] == Reset
    ensures obs.stationMode && None !in obs.startErrors ==>
              r.response == StartErrorList(obs.startErrors[StartAttempts - 1].value)
    ensures WifiConnect in r.effects <==> Completes(obs) && obs.isConnected
    ensures Completes(obs) && |obs.found| > 0 ==> r.response == ScanList(obs.found[..Min(|obs.found|, MaxRecords)])
    ensures Completes(obs) && |obs.found| == 0 ==> r.response == NoApList
  {
    if !obs.stationMode then ScanResult(NotStationMode, [WifiDisconnect])
    else
      var start := StartLoop(obs.startErrors);
      var before := Reset + start.0;
      assert WifiConnect !in before;
      if start.1.Some? then ScanResult(StartErrorList(start.1.value), before)
      else
        var records := obs.found[..Min(|obs.found|, MaxRecords)];
        if |records| > 0 && !obs.recordsAllocOk then ScanResult(RecordsAllocFailed, before)
        else
          var after := if obs.isConnected then [WifiConnect] else [];
          ScanListBound(records);
          ScanResult(if |records| > 0 then ScanList(records) else NoApList, before + after)
  }

  /** The start calls of a scan are those of the start loop; none without station mode. */
  lemma ScanAttempts(obs: ScanObs)
    requires |obs.startErrors| == StartAttempts && ValidRecords(obs.found)
    ensures !obs.stationMode ==> Count(ScanNetworks(obs).effects, ScanStart) == 0
    ensures obs.stationMode ==>
              Count(ScanNetworks(obs).effects, ScanStart) == Count(StartLoop(obs.startErrors).0, ScanStart)
  {
    if obs.stationMode {
      ScanEffects(obs);
      StartCalls(StartLoop(obs.startErrors).0, if Completes(obs) && obs.isConnected then [WifiConnect] else []);
    }
  }

  /** Only the start loop issues start calls. */
  lemma StartCalls(start: seq<Effect>, after: seq<Effect>)
    requires after == [] || after == [WifiConnect]
    ensures Count(Reset + (start + after), ScanStart) == Count(start, ScanStart)
  {
    assert ScanStart !in Reset && ScanStart !in after;
    CountAppend(Reset, start + after, ScanStart);
    CountAppend(start, after, ScanStart);
  }

  /** After a scan in station mode the event group holds FAIL and not CONNECTED, whatever it held. */
  lemma ScanLeavesFail(b: Bits, obs: ScanObs)
    requires |obs.startErrors| == StartAttempts && ValidRecords(obs.found) && obs.stationMode
    ensures ApplyAllBits(b, ScanNetworks(obs).effects) == Bits(false, true)
  {
    ScanEffects(obs);
    var start := StartLoop(obs.startErrors).0;
    ResetThenNeutral(b, start, if Completes(obs) && obs.isConnected then [WifiConnect] else []);
  }

  /** The reset followed by start calls and at most a connect leaves FAIL alone set. */
  lemma ResetThenNeutral(b: Bits, start: seq<Effect>, after: seq<Effect>)
    requires forall i :: 0 <= i < |start| ==> start[i] == ScanStart || start[i] == WifiStop || start[i] == WifiStart
    requires after == [] || after == [WifiConnect]
    ensures ApplyAllBits(b, Reset + (start + after)) == Bits(false, true)
  {
    ApplyAllBitsAppend(b, Reset, start + after);
    ResetBits(b);
    ApplyAllBitsAppend(Bits(false, true), start, after);
    ApplyAllBitsNeutral(Bits(false, true), start);
    ApplyAllBitsNeutral(Bits(false, true), after);
  }

  /** In station mode a scan is the reset, the start loop, and a reconnect when it completes while connected. */
  lemma ScanEffects(obs: ScanObs)
    requires |obs.startErrors| == StartAttempts && ValidRecords(obs.found) && obs.stationMode
    ensures ScanNetworks(obs).effects
            == Reset + (StartLoop(obs.startErrors).0 + (if Completes(obs) && obs.isConnected then [WifiConnect] else []))
  {
    var start := StartLoop(obs.startErrors).0;
    if Completes(obs) && obs.isConnected {
      assert Reset + start + [WifiConnect] == Reset + (start + [WifiConnect]);
    } else {
      assert Reset + start == Reset + (start + []);
    }
  }

  lemma ResetBits(b: Bits)
    ensures ApplyAllBits(b, Reset) == Bits(false, true)
  {
    var first := [WifiDisconnect, ClearBits(Bits(true, false)), SetBits(Bits(false, true))];
    ApplyBits3(b, first[0], first[1], first[2]);
    assert Reset == first + [ScanStop];
    ApplyAllBitsAppend(b, first, [ScanStop]);
    ApplyBits3(Bits(false, true), ScanStop, ScanStop, ScanStop);
  }

  /** Effects that do not touch the event group leave it as it was. */
  lemma {:induction false} ApplyAllBitsNeutral(b: Bits, es: seq<Effect>)
    requires forall i :: 0 <= i < |es| ==> !es[i].SetBits? && !es[i].ClearBits?
    ensures ApplyAllBits(b, es) == b
    decreases |es|
  {
    if |es| > 0 {
      ApplyAllBitsNeutral(b, es[1..]);
    }
  }

  /** What the scan task observes: its buffer allocation, the event group, the scan. */
  datatype TaskObs = TaskObs(responseAllocOk: bool, bits: Bits, scan: ScanObs)

  /**
   * `wifi_scan_callback_task` for the connection that asked; `handleB` is
   * the handle of value B. A join still waiting (neither bit set) is marked
   * failed first; FAIL is set again at the end.
   */
  function ScanTask(handleB: int, obs: TaskObs): (r: seq<Effect>)
    requires |obs.scan.startErrors| == StartAttempts && ValidRecords(obs.scan.found)
    ensures !obs.responseAllocOk ==> r == []
    ensures obs.responseAllocOk ==>
              Indicate(handleB, CString(ScanNetworks(obs.scan).response), false) in r
              && r[|r| - 1] == SetBits(Bits(false, true))
    ensures obs.responseAllocOk ==> (SetBits(Bits(false, true)) == r[0] <==> !obs.bits.connected && !obs.bits.fail)
  {
    if !obs.responseAllocOk then []
    else
      var guard := if !obs.bits.connected && !obs.bits.fail then [SetBits(Bits(false, true))] else [];
      var scan := ScanNetworks(obs.scan);
      var text := CString(scan.response);
      assert scan.response[0] == '{';
      var send := if 0 < |text| < ResponseSize then [Indicate(handleB, text, false)] else [];
      var r := guard + scan.effects + send + [SetBits(Bits(false, true))];
      assert r[|guard| + |scan.effects|] == Indicate(handleB, text, false);
      r
  }

  /** However the scan ends, the scan task leaves FAIL set. */
  lemma ScanTaskEndsFailed(handleB: int, obs: TaskObs)
    requires |obs.scan.startErrors| == StartAttempts && ValidRecords(obs.scan.found)
    requires obs.responseAllocOk
    ensures ApplyAllBits(obs.bits, ScanTask(handleB, obs)).fail
  {
    var r := ScanTask(handleB, obs);
    var front := r[..|r| - 1];
    assert r == front + [SetBits(Bits(false, true))];
    ApplyAllBitsAppend(obs.bits, front, [SetBits(Bits(false, true))]);
    var b := ApplyAllBits(obs.bits, front);
    ApplyBits3(b, SetBits(Bits(false, true)), WifiStop, WifiStop);
  }
}

=== FILE: switch.dfy ===
/**
 * The switch controller: the relay, LED and switch output pins, the
 * `process_command` decision, and the acceptance filter that the UDP
 * listener applies to each received datagram before acting on it.
 */
module Switch {
  import opened Wrappers
  import opened Text
  import opened Json
  import opened Nvs

  /** Output levels of the three pins the controller drives. */
  datatype Pins = Pins(relay: int, led: int, switchPin: int)

  const AllOn := Pins(1, 1, 1)
  const AllOff := Pins(0, 0, 0)

  /** The only sender whose commands are obeyed. */
  const SensorSource: string := "AIOS_SENSOR"
  /** The receive buffer holds 512 bytes; one is kept for the terminator. */
  const RecvBufSize: nat := 512

  /** `gpio_init`: relay and LED are configured as outputs and driven low; the switch pin is not touched. */
  function GpioInit(p: Pins): (r: Pins)
    ensures r.relay == 0 && r.led == 0 && r.switchPin == p.switchPin
  {
    p.(relay := 0, led := 0)
  }

  /** `process_command`, for a command C string: "ON" drives all three pins high, "OFF" all three low. */
  function ProcessCommand(p: Pins, command: string): (r: Pins)
    ensures CString(command) == "ON" ==> r == AllOn
    ensures CString(command) == "OFF" ==> r == AllOff
    ensures CString(command) !in {"ON", "OFF"} ==> r == p
  {
    var c := CString(command);
    if c == "ON" then AllOn else if c == "OFF" then AllOff else p
  }

  /** Issuing a command twice is the same as issuing it once, and the pins always move together. */
  lemma ProcessCommandIdempotent(p: Pins, command: string)
    ensures ProcessCommand(ProcessCommand(p, command), command) == ProcessCommand(p, command)
    ensures ProcessCommand(p, command) != p ==>
              var r := ProcessCommand(p, command); r.relay == r.led == r.switchPin
  {
  }

  /**
   * The device id the listener compares against, read once into an
   * uninitialised buffer: the stored id, "" when the key is missing, and
   * whatever the buffer held when the namespace does not open.
   */
  function ListenerDeviceId(store: Store, openOk: bool, uninitialised: string): (r: string)
    ensures NUL !in r
    ensures openOk && KeyDeviceId in store ==> r == CString(store[KeyDeviceId])
    ensures openOk && KeyDeviceId !in store ==> r == ""
    ensures !openOk ==> r == CString(uninitialised)
  {
    CString(ReadCredentials(store, openOk, Dest(None, None, Some(uninitialised))).deviceId.value)
  }

  /** The text handed to the parser: at most 511 received bytes, up to the first NUL. */
  function DatagramText(data: seq<Byte>): (r: string)
    ensures r <= data && |r| < RecvBufSize && NUL !in r
  {
    CString(data[..Min(|data|, RecvBufSize - 1)])
  }

  /**
   * The filter: a string `command`, a `source` equal to the sensor's, and a
   * `device_id` string equal to ours. Strings are compared as C strings, so
   * an identity holding a NUL never matches.
   */
  function Accepted(root: Json, deviceId: string): (r: bool)
    ensures r ==> StringValue(Get(root, "command")).Some? && NUL !in deviceId
  {
    var command, source, id := StringValue(Get(root, "command")), StringValue(Get(root, "source")), StringValue(Get(root, "device_id"));
    command.Some? && source == Some(SensorSource) && id == Some(deviceId)
  }

  /**
   * What the listener needs of a datagram: one that parses carries a
   * `device_id` item, whose string is logged before any check.
   */
  predicate DatagramAdmissible(received: Option<seq<Byte>>, parse: string -> Option<Json>) {
    received.Some? && |received.value| > 0 && parse(DatagramText(received.value)).Some? ==>
      Get(parse(DatagramText(received.value)).value, "device_id").Some?
  }

  /**
   * One pass of the receive loop. `received` is None when the receive call
   * fails; an empty datagram is ignored like a failure.
   */
  function HandleDatagram(p: Pins, deviceId: string, received: Option<seq<Byte>>, parse: string -> Option<Json>): (r: Pins)
    requires DatagramAdmissible(received, parse)
    ensures r != p ==> received.Some? && parse(DatagramText(received.value)).Some?
                       && Accepted(parse(DatagramText(received.value)).value, deviceId)
    ensures r != p ==> r == AllOn || r == AllOff
  {
    if received.None? || |received.value| == 0 then p
    else
      match parse(DatagramText(received.value))
      case None => p
      case Some(root) =>
        if Accepted(root, deviceId) then ProcessCommand(p, StringValue(Get(root, "command")).value) else p
  }

  /**
   * The filter in both directions: an accepted "ON" or "OFF" datagram sets
   * the pins whatever they were, and anything from another source or for
   * another device changes nothing.
   */
  lemma AcceptanceFilter(p: Pins, deviceId: string, data: seq<Byte>, parse: string -> Option<Json>)
    requires |data| > 0 && DatagramAdmissible(Some(data), parse)
    ensures var t := parse(DatagramText(data));
      t.Some? && Accepted(t.value, deviceId) && CString(StringValue(Get(t.value, "command")).value) == "ON"
      ==> HandleDatagram(p, deviceId, Some(data), parse) == AllOn
    ensures var t := parse(DatagramText(data));
      t.Some? && Accepted(t.value, deviceId) && CString(StringValue(Get(t.value, "command")).value) == "OFF"
      ==> HandleDatagram(p, deviceId, Some(data), parse) == AllOff
    ensures var t := parse(DatagramText(data));
      t.None? || !Accepted(t.value, deviceId) ==> HandleDatagram(p, deviceId, Some(data), parse) == p
  {
  }

  /** Bytes past the 511th never reach the parser: a long datagram acts like its first 511 bytes. */
  lemma LongDatagramCut(p: Pins, deviceId: string, data: seq<Byte>, parse: string -> Option<Json>)
    requires |data| >= RecvBufSize && DatagramAdmissible(Some(data), parse)
    ensures DatagramAdmissible(Some(data[..RecvBufSize - 1]), parse)
    ensures HandleDatagram(p, deviceId, Some(data), parse) == HandleDatagram(p, deviceId, Some(data[..RecvBufSize - 1]), parse)
  {
    assert data[..RecvBufSize - 1][..Min(RecvBufSize - 1, RecvBufSize - 1)] == data[..RecvBufSize - 1];
  }

  /**
   * A listener with no stored id obeys exactly the sensor datagrams whose
   * `device_id` is the empty string.
   */
  lemma EmptyStoredIdMatchesEmpty(store: Store, root: Json, uninitialised: string)
    requires KeyDeviceId !in store
    ensures Accepted(root, ListenerDeviceId(store, true, uninitialised)) <==>
              StringValue(Get(root, "command")).Some? && StringValue(Get(root, "source")) == Some(SensorSource)
              && StringValue(Get(root, "device_id")) == Some("")
  {
  }

  /** The receive loop over a sequence of receive results. */
  predicate RunAdmissible(received: seq<Option<seq<Byte>>>, parse: string -> Option<Json>) {
    forall i :: 0 <= i < |received| ==> DatagramAdmissible(received[i], parse)
  }

  function Listen(p: Pins, deviceId: string, received: seq<Option<seq<Byte>>>, parse: string -> Option<Json>): (r: Pins)
    requires RunAdmissible(received, parse)
    decreases |received|
  {
    if |received| == 0 then p
    else Listen(HandleDatagram(p, deviceId, received[0], parse), deviceId, received[1..], parse)
  }

  /**
   * After any sequence of datagrams the pins are where they started or were
   * all driven to one level by an accepted command: a partial switch state
   * never arises from the network.
   */
  lemma {:induction false} ListenKeepsPinsTogether(p: Pins, deviceId: string, received: seq<Option<seq<Byte>>>, parse: string -> Option<Json>)
    requires RunAdmissible(received, parse)
    ensures var r := Listen(p, deviceId, received, parse); r == p || r == AllOn || r == AllOff
    decreases |received|
  {
    if |received| > 0 {
      var q := HandleDatagram(p, deviceId, received[0], parse);
      ListenKeepsPinsTogether(q, deviceId, received[1..], parse);
    }
  }

  /** Once the pins agree, no datagram separates them. */
  lemma {:induction false} ListenFromUniform(p: Pins, deviceId: string, received: seq<Option<seq<Byte>>>, parse: string -> Option<Json>)
    requires RunAdmissible(received, parse) && (p == AllOn || p == AllOff)
    ensures var r := Listen(p, deviceId, received, parse); r == AllOn || r == AllOff
    decreases |received|
  {
    if |received| > 0 {
      ListenFromUniform(HandleDatagram(p, deviceId, received[0], parse), deviceId, received[1..], parse);
    }
  }

  /** With nothing accepted, the pins never move. */
  lemma {:induction false} ListenIgnoresStrangers(p: Pins, deviceId: string, received: seq<Option<seq<Byte>>>, parse: string -> Option<Json>)
    requires RunAdmissible(received, parse)
    requires forall i :: 0 <= i < |received| ==>
               (received[i].None? || parse(DatagramText(received[i].value)).None?
                || !Accepted(parse(DatagramText(received[i].value)).value, deviceId))
    ensures Listen(p, deviceId, received, parse) == p
    decreases |received|
  {
    if |received| > 0 {
      ListenIgnoresStrangers(p, deviceId, received[1..], parse);
    }
  }
}

=== FILE: text.dfy ===
/**
 * Byte and C-string conventions shared by the firmware model.
 *
 * A byte is written as the character whose code is that byte, so a payload
 * received over the radio and the text handed to the JSON parser are both
 * plain Dafny strings.
 */
module Text {

  /** One byte of a payload. */
  type Byte = c: char | c as int < 256 witness '\0'

  const NUL: char := '\0'

  function Min(a: int, b: int): int { if a <= b then a else b }

  /** The C string held by a buffer: everything before the first NUL. */
  function CString(s: string): (r: string)
    ensures r <= s
    ensures NUL !in r
    ensures |r| < |s| ==> s[|r|] == NUL
  {
    if |s| == 0 || s[0] == NUL then "" else [s[0]] + CString(s[1..])
  }

  /** A string without NUL is its own C string. */
  lemma CStringOfPlain(s: string)
    requires NUL !in s
    ensures CString(s) == s
  {
  }

  /** The C string ends at the first NUL, whatever follows it. */
  lemma {:induction false} CStringStops(a: string, b: string)
    requires NUL !in a
    ensures CString(a + [NUL] + b) == a
    decreases |a|
  {
    var s := a + [NUL] + b;
    if |a| == 0 {
      assert s[0] == NUL;
    } else {
      assert s[1..] == a[1..] + [NUL] + b;
      CStringStops(a[1..], b);
      assert a == [a[0]] + a[1..];
    }
  }

  /**
   * What `snprintf(buf, size, "%s", s)` or `strlcpy(buf, s, size)` leaves in a
   * buffer of `size` bytes: the longest prefix of `s` that fits with its NUL.
   */
  function Truncated(s: string, size: nat): (r: string)
    requires size > 0
    ensures r <= s
    ensures |r| == Min(|s|, size - 1)
  {
    if |s| < size then s else s[..size - 1]
  }

  /** The decimal digit character for `d`. */
  function DigitChar(d: nat): (c: char)
    requires d < 10
    ensures '0' <= c <= '9'
  {
    "0123456789"[d]
  }

  /** Upper-case hex digit, as `%X` prints it. */
  function HexDigit(d: nat): (c: char)
    requires d < 16
    ensures '0' <= c <= '9' || 'A' <= c <= 'F'
  {
    "0123456789ABCDEF"[d]
  }

  /** Decimal digits of a natural number, most significant first, no leading zeros. */
  function Digits(n: nat): (r: string)
    ensures 1 <= |r|
    ensures forall i :: 0 <= i < |r| ==> '0' <= r[i] <= '9'
    ensures n < 10 ==> |r| == 1
    ensures n < 100 ==> |r| <= 2
    ensures n < 1000 ==> |r| <= 3
  {
    if n < 10 then [DigitChar(n)] else Digits(n / 10) + [DigitChar(n % 10)]
  }

  /** The text `printf("%d", n)` produces. */
  function DecimalString(n: int): (r: string)
    ensures 1 <= |r|
    ensures forall i :: 0 <= i < |r| ==> r[i] == '-' || '0' <= r[i] <= '9'
    ensures -1000 < n < 1000 ==> |r| <= 4
    ensures (r[0] == '-') <==> n < 0
  {
    if n < 0 then "-" + Digits(-n) else Digits(n)
  }
}

=== FILE: wifi_events.dfy ===
/**
 * The station side of the Wi-Fi driver: the event handler that reacts to
 * station start, disconnection and address assignment, and `wifi_init_sta`,
 * which applies the stored configuration and waits for the first outcome.
 * The handler's only memory is the event group and the retry counter.
 */
module WifiEvents {
  import opened Wrappers
  import opened Text
  import opened Effects
  import opened Credentials
  import opened Nvs

  /** Disconnect reasons the handler distinguishes; every other code is `OtherReason`. */
  datatype Reason = AuthFail | NoApFound | BeaconTimeout | OtherReason(code: int)

  datatype Event = StaStart | StaDisconnected(reason: Reason) | GotIp

  /** The handler's state: the event group and `s_retry_num`. */
  datatype Station = Station(bits: Bits, retry: int)

  /** What a read of durable storage sees: its contents and whether the namespace opens. */
  datatype Flash = Flash(store: Store, openOk: bool)

  datatype Step = Step(station: Station, effects: seq<Effect>)

  const FailBit := Bits(false, true)
  const ConnectedBit := Bits(true, false)

  /** Reasons after which the handler marks the attempt failed. */
  predicate FastFail(r: Reason) {
    r.AuthFail? || r.NoApFound? || r.BeaconTimeout?
  }

  /** The ssid a read into a zeroed buffer yields: the stored one, or "" when absent or unopenable. */
  function StoredSsid(flash: Flash): (r: string)
    ensures flash.openOk && KeySsid in flash.store ==> r == CString(flash.store[KeySsid])
    ensures !flash.openOk || KeySsid !in flash.store ==> r == ""
  {
    CString(ReadCredentials(flash.store, flash.openOk, Dest(Some(""), Some(""), None)).ssid.value)
  }

  function StoredPassword(flash: Flash): (r: string)
    ensures flash.openOk && KeyPassword in flash.store ==> r == CString(flash.store[KeyPassword])
    ensures !flash.openOk || KeyPassword !in flash.store ==> r == ""
  {
    CString(ReadCredentials(flash.store, flash.openOk, Dest(Some(""), Some(""), None)).password.value)
  }

  /** Credentials held in memory: both strings present and a non-empty ssid. */
  predicate InMemory(slot: Slot) {
    slot.ssid.Some? && slot.password.Some? && |CString(slot.ssid.value)| > 0
  }

  /** Whether station start leads to a connect call. */
  predicate HasCredentials(slot: Slot, flash: Flash) {
    InMemory(slot) || |StoredSsid(flash)| > 0
  }

  /** `event_handler`, for one event; the event group absorbs the effects in order. */
  function Handle(st: Station, slot: Slot, flash: Flash, e: Event): (r: Step)
    ensures r.station.bits == ApplyAllBits(st.bits, r.effects)
    ensures WifiConnect in r.effects <==> e.StaDisconnected? || (e.StaStart? && HasCredentials(slot, flash))
    ensures SetBits(FailBit) in r.effects <==>
              (e.StaStart? && !HasCredentials(slot, flash)) || (e.StaDisconnected? && FastFail(e.reason))
    ensures SetBits(ConnectedBit) in r.effects <==> e.GotIp?
    ensures forall i :: 0 <= i < |r.effects| ==> !r.effects[i].ClearBits?
    ensures forall i :: 0 <= i < |r.effects| && r.effects[i].SetBits? ==>
              r.effects[i].mask == FailBit || r.effects[i].mask == ConnectedBit
    ensures (e.StaDisconnected? && !FastFail(e.reason)) || (e.StaStart? && HasCredentials(slot, flash)) ==>
              r.station.bits == st.bits
    ensures r.station.retry == (if e.GotIp? then 0 else if e.StaDisconnected? && FastFail(e.reason) then 5 else st.retry)
  {
    var effects :=
      match e
      case StaStart =>
        if HasCredentials(slot, flash) then [WifiConnect] else [SetBits(FailBit)]
      case StaDisconnected(reason) =>
        if FastFail(reason) then [SetBits(FailBit), WifiConnect] else [WifiConnect]
      case GotIp => [SetBits(ConnectedBit)];
    var retry :=
      match e
      case StaDisconnected(reason) => if FastFail(reason) then 5 else st.retry
      case GotIp => 0
      case StaStart => st.retry;
    ApplyBits3(st.bits, effects[0], effects[|effects| - 1], effects[0]);
    assert effects == [WifiConnect] ==> ApplyAllBits(st.bits, effects) == st.bits;
    Step(Station(ApplyAllBits(st.bits, effects), retry), effects)
  }

  /** The retry counter is written but never read: every decision is the same whatever it holds. */
  lemma RetryCounterIgnored(st: Station, retry: int, slot: Slot, flash: Flash, e: Event)
    ensures Handle(st, slot, flash, e).effects == Handle(st.(retry := retry), slot, flash, e).effects
    ensures Handle(st, slot, flash, e).station.bits == Handle(st.(retry := retry), slot, flash, e).station.bits
  {
  }

  /** A sequence of events handled in order; effects accumulate. */
  function Run(st: Station, slot: Slot, flash: Flash, events: seq<Event>): Step
    decreases |events|
  {
    if |events| == 0 then Step(st, [])
    else
      var first := Handle(st, slot, flash, events[0]);
      var rest := Run(first.station, slot, flash, events[1..]);
      Step(rest.station, first.effects + rest.effects)
  }

  /**
   * Over any run the handler keeps the event group in step with its effects
   * and never clears a bit: once CONNECTED or FAIL is set it stays set.
   */
  lemma {:induction false} RunBits(st: Station, slot: Slot, flash: Flash, events: seq<Event>)
    ensures Run(st, slot, flash, events).station.bits == ApplyAllBits(st.bits, Run(st, slot, flash, events).effects)
    ensures st.bits.connected ==> Run(st, slot, flash, events).station.bits.connected
    ensures st.bits.fail ==> Run(st, slot, flash, events).station.bits.fail
    decreases |events|
  {
    if |events| > 0 {
      var first := Handle(st, slot, flash, events[0]);
      RunBits(first.station, slot, flash, events[1..]);
      ApplyAllBitsAppend(st.bits, first.effects, Run(first.station, slot, flash, events[1..]).effects);
      assert first.station.bits == ApplyAllBits(st.bits, first.effects);
      HandleKeepsBits(st, slot, flash, events[0]);
    }
  }

  lemma HandleKeepsBits(st: Station, slot: Slot, flash: Flash, e: Event)
    ensures st.bits.connected ==> Handle(st, slot, flash, e).station.bits.connected
    ensures st.bits.fail ==> Handle(st, slot, flash, e).station.bits.fail
    ensures e.GotIp? ==> Handle(st, slot, flash, e).station.bits.connected
  {
    var es := Handle(st, slot, flash, e).effects;
    ApplyBits3(st.bits, es[0], es[|es| - 1], es[0]);
  }

  /** An address assignment anywhere in a run leaves CONNECTED set at its end. */
  lemma {:induction false} GotIpConnects(st: Station, slot: Slot, flash: Flash, events: seq<Event>)
    requires GotIp in events
    ensures Run(st, slot, flash, events).station.bits.connected
    decreases |events|
  {
    var first := Handle(st, slot, flash, events[0]);
    HandleKeepsBits(st, slot, flash, events[0]);
    if events[0] == GotIp {
      RunBits(first.station, slot, flash, events[1..]);
    } else {
      assert GotIp in events[1..];
      GotIpConnects(first.station, slot, flash, events[1..]);
    }
  }

  /** What `wifi_init_sta` does and concludes. */
  datatype InitResult = InitResult(effects: seq<Effect>, isConnected: bool)

  /**
   * `wifi_init_sta`: a fresh event group, station mode, the stored
   * configuration (both strings cut to 31 and 63 characters) only when the
   * stored ssid is non-empty and FAIL otherwise, then start. `waitBits` is
   * what the wait for either bit returns; `is_connected` records CONNECTED.
   */
  function InitSta(flash: Flash, waitBits: Bits): (r: InitResult)
    ensures |r.effects| == 3 && r.effects[0] == WifiSetMode && r.effects[2] == WifiStart
    ensures r.effects[1].WifiSetConfig? <==> |StoredSsid(flash)| > 0
    ensures r.effects[1].WifiSetConfig? ==>
              r.effects[1].ssid <= StoredSsid(flash) && |r.effects[1].ssid| <= 31
              && r.effects[1].password <= StoredPassword(flash) && |r.effects[1].password| <= 63
    ensures r.effects[1].WifiSetConfig? ==>
              r.effects[1].ssid == StoredSsid(flash)[..Min(|StoredSsid(flash)|, 31)]
              && r.effects[1].password == StoredPassword(flash)[..Min(|StoredPassword(flash)|, 63)]
    ensures !r.effects[1].WifiSetConfig? ==> ApplyAllBits(NoBits, r.effects) == FailBit
    ensures r.isConnected <==> waitBits.connected
  {
    var config := StoredConfig(StoredSsid(flash), StoredPassword(flash));
    var effects := [WifiSetMode, config, WifiStart];
    ApplyBits3(NoBits, WifiSetMode, config, WifiStart);
    InitResult(effects, if waitBits.connected then true else if waitBits.fail then false else false)
  }

  /** The configuration step: the stored strings cut to the driver's field sizes, or FAIL without an ssid. */
  function StoredConfig(ssid: string, password: string): (r: Effect)
    ensures r.WifiSetConfig? <==> |ssid| > 0
    ensures r.WifiSetConfig? ==> r.ssid <= ssid && |r.ssid| <= 31 && r.password <= password && |r.password| <= 63
    ensures r.WifiSetConfig? ==> r.ssid == ssid[..Min(|ssid|, 31)] && r.password == password[..Min(|password|, 63)]
    ensures !r.WifiSetConfig? ==> r == SetBits(FailBit)
  {
    if |ssid| > 0 then WifiSetConfig(Truncated(ssid, 32), Truncated(password, 64))
    else SetBits(FailBit)
  }
}

=== FILE: wrappers.dfy ===
/** Failure-compatible option type used across the firmware model. */
module Wrappers {

  /** A value that may be missing: a NULL pointer, an absent JSON item, an absent key. */
  datatype Option<+T> = None | Some(value: T) {

    /** The wrapped value, or `default` when there is none. */
    function GetOr(default: T): T {
      match this
      case Some(v) => v
      case None => default
    }
  }
}
